=== FILE: README.md ===
# Saved.io++ bookmark store and synchronization, in Dafny

A model of the core of Saved.io++, an Android client for the saved.io bookmark
service. The bookmarks live in a local object store and are synchronized with
the remote service. The model covers:

- **The store.** Two entities, `Bookmark` and `BookmarkList`, keyed by their
  primary keys (bookmark id, list name). A list's membership is an ordered
  sequence of references to stored bookmarks. Deleting a bookmark drops every
  link to it, as the object store does (`bookmarks.dfy`).
- **The store transactions** of `RealmUtils`: add with find-or-create list,
  remove with empty-list purge, the favorite flags and the list notification
  flag (`store_ops.dfy`). Also the smart favorites: the top-ten selection by
  clicks and click counting with the ten-favorite cap (`favorites.dfy`). Each
  transaction body is one pure function from the store before to the store
  after. A body that throws is a `Failure` carrying the message the callback
  receives, and the store is unchanged.
- **Synchronization** (`SyncIntentService`):
  - the paging loop over a remote service that repeats its last page instead
    of answering with an empty one (`paging.dfy`);
  - the reconciliation transaction: remove, create or update, purge empty
    lists, choose the lists to notify, and count (`reconcile.dfy`);
  - the service run: refusal without an API key, the stored sync result and
    the last-sync time (`sync_service.dfy`).
- **When synchronization runs** (`SyncUtils`): the interval constants, the
  staleness test and the run-once start-up (`sync_schedule.dfy`).
- **JSON export and import** (`BookmarkSerializer`), with JSON abstracted to
  objects and arrays (`serializer.dfy`).
- **The list part of the bookmark form** (`BookmarkFormUtils`): name
  validation, the sorted names on offer, preselection (`list_form.dfy`). A new
  name is lower-cased with `toLowerCase` first (`java_string.dfy`).
- **URL normalisation** in its two copies (`urls.dfy`).
- **The three bookmark comparators** (`comparators.dfy`). They rest on
  `String.compareTo` (`java_string.dfy`). `date_format.dfy`
  shows that comparing `yyyy-MM-dd HH:mm:ss` dates as strings orders them in time.

Inputs the program takes from its environment are parameters:

- the clock;
- the user API key and the smart-favorites preference;
- the remote service, as a function from page number to response;
- the order in which a store query visits its objects, as a sequence that
  enumerates the stored ids;
- the dialog input of the form.

The paging loop terminates only when the service stops repeating new pages, so
it carries `fuel`, the number of requests it may still make. `Paging.FetchFrom`
returns `OutOfFuel` when the fuel runs out, which a sync run reports as `Hangs`,
standing for a run that never finishes.

The shipped `Bookmark.java` declares no click counter and `BookmarkList.java`
no notification flag. Yet `RealmUtils.java` and `SyncIntentService.java` read
and write both. The model gives `Bookmark` a Java `int` click counter, which
wraps around on overflow, and `BookmarkList` a boolean `notifyFlag` that is
false on creation.

The store invariant `Bookmarks.Valid` says:

- keys agree with primary keys;
- no list has the empty name;
- membership links never dangle;
- a bookmark that names a list is a member of it, and only of it.

Every operation is shown to keep it.

Synchronization creates bookmarks without a list name, because a remote record
carries no list. So a created bookmark never belongs to a list, and only
updated bookmarks make a list notify. `Reconcile.NotifyIffChanged` states this.

## Model

| member | source | states |
|---|---|---|
| Bookmarks.NewBookmark | Saved.io++/app/src/main/java/io/github/nfdz/savedio/model/Bookmark.java:26-39 | a new bookmark object has the given primary key, empty texts, no list, no clicks, and is not a favorite |
| Bookmarks.NewList | Saved.io++/app/src/main/java/io/github/nfdz/savedio/model/BookmarkList.java:19-22 | a new list object has the given name, no members and no notification |
| Bookmarks.IncrementClicks | Saved.io++/app/src/main/java/io/github/nfdz/savedio/data/RealmUtils.java:280 | the counter goes up by one as a Java `int` (from INT_MAX it wraps to INT_MIN); no other attribute changes |
| Bookmarks.DeleteBookmark | Saved.io++/app/src/main/java/io/github/nfdz/savedio/data/RealmUtils.java:98 | the bookmark leaves the store, every list keeps its name and flag, and each membership loses exactly the links to that bookmark |
| Bookmarks.DeleteBookmarkKeepsValid | Saved.io++/app/src/main/java/io/github/nfdz/savedio/data/RealmUtils.java:97-104 | deleting a bookmark keeps the store valid, and the only list it can empty is the one the bookmark named |
| StoreOps.FindOrCreateList | Saved.io++/app/src/main/java/io/github/nfdz/savedio/data/RealmUtils.java:48-52 | the stored list of that name, or a new empty list when there is none |
| StoreOps.AddBookmark | Saved.io++/app/src/main/java/io/github/nfdz/savedio/data/RealmUtils.java:45-64 | fails with the error message exactly when the id is already stored; otherwise the bookmark is stored; with a list name it is appended to that list, which is created if absent (named after it, holding just this bookmark, notification off), and every other list is unchanged; with no list name the lists are unchanged; validity and non-empty lists are kept |
| StoreOps.RemoveBookmark | Saved.io++/app/src/main/java/io/github/nfdz/savedio/data/RealmUtils.java:93-116 | fails exactly when the id is not stored; otherwise returns the bookmark as it was, removes it and its links, deletes its former list exactly when that list is left empty, leaves every other list unchanged, and keeps validity and non-empty lists |
| StoreOps.RemoveKeepsValid | Saved.io++/app/src/main/java/io/github/nfdz/savedio/data/RealmUtils.java:97-105 | removal with the empty-list purge keeps a valid store valid, keeps lists non-empty, and changes no list but the bookmark's own |
| StoreOps.SetFavorite | Saved.io++/app/src/main/java/io/github/nfdz/savedio/data/RealmUtils.java:168-182 | fails exactly when the id is not stored; otherwise only that bookmark's favorite flag changes, to the given value |
| StoreOps.ClearFavorites | Saved.io++/app/src/main/java/io/github/nfdz/savedio/data/RealmUtils.java:200-205 | afterwards no bookmark is a favorite, and apart from the flag no bookmark or list changed |
| StoreOps.SetListNotificationFlag | Saved.io++/app/src/main/java/io/github/nfdz/savedio/data/RealmUtils.java:328-341 | fails exactly when no list has that name; otherwise only that list's flag changes, to the given value |
| Favorites.Select | Saved.io++/app/src/main/java/io/github/nfdz/savedio/data/RealmUtils.java:234-240 | a filtered query returns exactly the stored ids that pass the filter, without repeats when the visiting order has none |
| Favorites.SelectCount | Saved.io++/app/src/main/java/io/github/nfdz/savedio/data/RealmUtils.java:234-240 | over an enumeration of the store, the opened bookmarks are each collected once, and their number is the number of stored bookmarks with clicks |
| Favorites.SortByClicks | Saved.io++/app/src/main/java/io/github/nfdz/savedio/data/RealmUtils.java:241 | the result is a permutation of the input, ordered from most to least clicked |
| Favorites.SmartSelection | Saved.io++/app/src/main/java/io/github/nfdz/savedio/data/RealmUtils.java:234-245 | the selection holds min(10, number of opened bookmarks) distinct opened bookmarks, and each has at least as many clicks as any opened bookmark left out |
| Favorites.MarkSmartFavorites | Saved.io++/app/src/main/java/io/github/nfdz/savedio/data/RealmUtils.java:234-245 | a bookmark is a favorite afterwards exactly when it was one before or is selected; no flag is cleared, nothing else changes, validity is kept |
| Favorites.ClearThenMark | Saved.io++/app/src/main/java/io/github/nfdz/savedio/SettingsFragment.java:142-147 | clearing and then marking leaves exactly the selection as favorites: min(10, opened) bookmarks, each opened at least as often as every opened non-favorite |
| Favorites.FirstWithFewerClicks | Saved.io++/app/src/main/java/io/github/nfdz/savedio/data/RealmUtils.java:289-295 | the position of the first favorite, in query order, with fewer clicks than the threshold; every favorite before it has at least as many; the length when there is none |
| Favorites.Promote | Saved.io++/app/src/main/java/io/github/nfdz/savedio/data/RealmUtils.java:282-297 | the smart-favorite step changes only favorite flags |
| Favorites.IncrementClickCounter | Saved.io++/app/src/main/java/io/github/nfdz/savedio/data/RealmUtils.java:277-308 | fails exactly when the id is not stored; otherwise that counter goes up by one, no other counter, text or list changes, and with smart favorites off (or a bookmark already a favorite) no flag changes; validity is kept |
| Favorites.IncrementClickCounterFavorites | Saved.io++/app/src/main/java/io/github/nfdz/savedio/data/RealmUtils.java:282-297 | with smart favorites on: below ten favorites the bookmark joins them; otherwise it either replaces exactly one favorite with fewer clicks, or nothing changes because every favorite has at least as many clicks; at most ten favorites stay at most ten |
| Paging.FetchFrom | Saved.io++/app/src/main/java/io/github/nfdz/savedio/sync/SyncIntentService.java:85-113 | a completed download stops at a page that is empty or repeats the last appended id, every page before it appended; its records are those pages' records in order; a failure happens at the first page that is not a page, after appending every page before it, and is the service error exactly for an HTTP error |
| Paging.FetchAll | Saved.io++/app/src/main/java/io/github/nfdz/savedio/sync/SyncIntentService.java:80-113 | the same, starting at page 1 with no remembered id; it never fails with the API-key error |
| Paging.StopIsUnique | Saved.io++/app/src/main/java/io/github/nfdz/savedio/sync/SyncIntentService.java:91-103 | at most one page can be where the loop stops |
| Paging.FetchComplete | Saved.io++/app/src/main/java/io/github/nfdz/savedio/sync/SyncIntentService.java:85-113 | a service that stops at a page, within the fuel, is downloaded completely: exactly the appended pages' records, stopping there |
| Paging.FetchFailsAt | Saved.io++/app/src/main/java/io/github/nfdz/savedio/sync/SyncIntentService.java:104-112 | a service that answers with an HTTP error (or an I/O failure) after appended pages, within the fuel, fails the download there with the service (or network) error |
| Reconcile.RemoteIds | Saved.io++/app/src/main/java/io/github/nfdz/savedio/sync/SyncIntentService.java:116-119 | an id is remote exactly when some downloaded record carries it |
| Reconcile.DeleteAll | Saved.io++/app/src/main/java/io/github/nfdz/savedio/sync/SyncIntentService.java:126-131 | deleting a set of bookmarks removes them and exactly their links, keeps every list, and keeps validity |
| Reconcile.DeletingOneByOne | Saved.io++/app/src/main/java/io/github/nfdz/savedio/sync/SyncIntentService.java:126-131 | deleting bookmarks one at a time, in any order, is deleting the set of them at once |
| Reconcile.RemoveMissing | Saved.io++/app/src/main/java/io/github/nfdz/savedio/sync/SyncIntentService.java:123-131 | the bookmarks kept are exactly the stored ones with a remote id, unchanged; every list stays and loses only links to removed bookmarks; validity is kept |
| Reconcile.WithContent | Saved.io++/app/src/main/java/io/github/nfdz/savedio/sync/SyncIntentService.java:154-157 | the title, date, url and notes become the record's, and nothing else changes |
| Reconcile.ApplyRecord | Saved.io++/app/src/main/java/io/github/nfdz/savedio/sync/SyncIntentService.java:137-160 | afterwards the id holds the record's content; it is created (with defaults for the other attributes) exactly when the id was not stored; a stored one counts as unchanged exactly when its four fields already equal the record's, and only its content can change |
| Reconcile.ApplyAll | Saved.io++/app/src/main/java/io/github/nfdz/savedio/sync/SyncIntentService.java:134-161 | the ids afterwards are the stored plus the remote ones; stored ids no record names are untouched; stored bookmarks change only in content; new ones carry only synchronized content; the created ids are exactly the remote ids that were not stored |
| Reconcile.CreatedOnce | Saved.io++/app/src/main/java/io/github/nfdz/savedio/sync/SyncIntentService.java:140-147 | no id is counted as created twice, even when the service repeats it |
| Reconcile.LastRecordWins | Saved.io++/app/src/main/java/io/github/nfdz/savedio/sync/SyncIntentService.java:136-161 | each id ends up with the content of its last record |
| Reconcile.UpdatedIffChanged | Saved.io++/app/src/main/java/io/github/nfdz/savedio/sync/SyncIntentService.java:148-159 | a stored bookmark is counted as updated exactly when some record for it differs from its stored content |
| Reconcile.ApplyAllUnchanged | Saved.io++/app/src/main/java/io/github/nfdz/savedio/sync/SyncIntentService.java:148-160 | when every record names a stored bookmark with the same content, nothing is created, updated or changed |
| Reconcile.ContainsAny | Saved.io++/app/src/main/java/io/github/nfdz/savedio/sync/SyncIntentService.java:172-185 | true exactly when some changed bookmark is a member |
| Reconcile.ListsToNotify | Saved.io++/app/src/main/java/io/github/nfdz/savedio/sync/SyncIntentService.java:164-188 | a list is notified exactly when it has members, its flag is set and it holds a created or updated bookmark |
| Reconcile.PurgeEmptyLists | Saved.io++/app/src/main/java/io/github/nfdz/savedio/sync/SyncIntentService.java:165-168 | exactly the non-empty lists survive, unchanged |
| Reconcile.ReconcileStore | Saved.io++/app/src/main/java/io/github/nfdz/savedio/sync/SyncIntentService.java:121-195 | afterwards the stored ids are exactly the remote ids and no list is empty or new; removed counts the stored ids not remote, created the remote ids not stored; a list survives exactly when it still links a reported bookmark, keeping its name, flag and order and losing only the links to bookmarks no longer reported; notified lists are flagged survivors; validity is kept |
| Reconcile.SyncedContent | Saved.io++/app/src/main/java/io/github/nfdz/savedio/sync/SyncIntentService.java:133-161 | each bookmark carries its last record's content; a bookmark that was stored differs only in content; a new one has default attributes besides its content |
| Reconcile.CreatedCount | Saved.io++/app/src/main/java/io/github/nfdz/savedio/sync/SyncIntentService.java:134-147 | the number of creations is the number of remote ids that were not stored |
| Reconcile.NotifyIffChanged | Saved.io++/app/src/main/java/io/github/nfdz/savedio/sync/SyncIntentService.java:164-188 | over a valid store, a list is notified exactly when it was stored with its flag set and one of its members was changed by some record |
| Reconcile.AgreeingStoreIsFixed | Saved.io++/app/src/main/java/io/github/nfdz/savedio/sync/SyncIntentService.java:121-195 | a store that already holds exactly the remote ids with their content, and no empty list, is left as it is, with summary (0, 0, 0) and nothing notified |
| Reconcile.ReconcileIsIdempotent | Saved.io++/app/src/main/java/io/github/nfdz/savedio/sync/SyncIntentService.java:116-195 | with distinct remote ids, reconciling the result again gives the same store, summary (0, 0, 0) and no notification |
| SyncService.SyncBookmarks | Saved.io++/app/src/main/java/io/github/nfdz/savedio/sync/SyncIntentService.java:60-203 | the API-key error happens exactly when the key is empty; any other failure comes from a page that failed after every earlier page was appended; a success is the reconciliation with every record of the pages before the stopping page |
| SyncService.OnHandleIntent | Saved.io++/app/src/main/java/io/github/nfdz/savedio/sync/SyncIntentService.java:41-58 | an empty key records the API-key failure and changes nothing else; any failure leaves bookmarks, lists and last-sync time unchanged and notifies nothing; a success records the summary and the time of the run; notified lists are flagged; validity is kept |
| SyncService.SyncOfStoppingService | Saved.io++/app/src/main/java/io/github/nfdz/savedio/sync/SyncIntentService.java:192-209 | against a service that stops within the fuel, the run succeeds with the reconciled store, records its summary and remembers the time |
| SyncService.SyncOfFailingService | Saved.io++/app/src/main/java/io/github/nfdz/savedio/sync/SyncIntentService.java:104-112 | against a service that fails at a page, the run records the matching failure and changes nothing else |
| SyncService.SecondSyncChangesNothing | Saved.io++/app/src/main/java/io/github/nfdz/savedio/sync/SyncIntentService.java:116-209 | two runs against the same stopping service with distinct ids: the second keeps the store, records (0, 0, 0), updates only the time and notifies nothing |
| SyncSchedule.JobWindow | Saved.io++/app/src/main/java/io/github/nfdz/savedio/sync/SyncUtils.java:25-28 | the recurring job runs between 86400 and 115200 seconds from now, an 8-hour flexible window, with an interval of 86,400,000 ms |
| SyncSchedule.StalenessIsStrict | Saved.io++/app/src/main/java/io/github/nfdz/savedio/sync/SyncUtils.java:44-47 | data is stale exactly when more than 86,400,000 ms have passed; exactly one interval is not stale |
| SyncSchedule.Initialize | Saved.io++/app/src/main/java/io/github/nfdz/savedio/sync/SyncUtils.java:34-50 | the first call schedules the job and asks for an immediate sync exactly when the data is stale; later calls do nothing |
| SyncSchedule.InitializeRunsOnce | Saved.io++/app/src/main/java/io/github/nfdz/savedio/sync/SyncUtils.java:36-37 | after one call, further calls do nothing whatever the clock says |
| Serializer.SerializeBookmark | Saved.io++/app/src/main/java/io/github/nfdz/savedio/model/serialization/BookmarkSerializer.java:25-36 | an object with exactly the four keys title, list name, url and notes, holding the bookmark's values |
| Serializer.SerializeOnlyReadsExportedPart | Saved.io++/app/src/main/java/io/github/nfdz/savedio/model/serialization/BookmarkSerializer.java:27-32 | id, date, favorite flag and click counter do not influence the output |
| Serializer.SerializeBookmarks | Saved.io++/app/src/main/java/io/github/nfdz/savedio/model/serialization/BookmarkSerializer.java:44-53 | the empty-list error exactly for no bookmarks; otherwise one serialized element per bookmark, in order |
| Serializer.DeserializeBookmark | Saved.io++/app/src/main/java/io/github/nfdz/savedio/model/serialization/BookmarkSerializer.java:61-73 | not an object, or no url, is the JSON error; otherwise a new bookmark with the url and the present optional fields, "" for missing ones |
| Serializer.DeserializeElements | Saved.io++/app/src/main/java/io/github/nfdz/savedio/model/serialization/BookmarkSerializer.java:89-91 | succeeds exactly when every element deserializes, giving one bookmark per element in order; otherwise the JSON error of a failing element |
| Serializer.DeserializeBookmarks | Saved.io++/app/src/main/java/io/github/nfdz/savedio/model/serialization/BookmarkSerializer.java:81-96 | not an array is the array error, an empty array the empty error; otherwise one bookmark per element in order, or the JSON error when some element fails |
| Serializer.RoundTrip | Saved.io++/app/src/main/java/io/github/nfdz/savedio/model/serialization/BookmarkSerializer.java:28-91 | importing an export of a non-empty list gives as many bookmarks, each with the original's title, list name, url and notes |
| Urls.ProcessUrl | Saved.io++/app/src/main/java/io/github/nfdz/savedio/utils/URLUtils.java:21-31 | empty exactly for the empty address; otherwise the result names a protocol and is the address itself when it already named one, else the address with a protocol in front |
| Urls.LenientProcessUrl | Saved.io++/app/src/main/java/io/github/nfdz/savedio/utils/LenientURL.java:12-23 | the same promises for the second copy |
| Urls.ProcessUrlIsIdempotent | Saved.io++/app/src/main/java/io/github/nfdz/savedio/utils/URLUtils.java:21-31 | normalising twice is normalising once |
| Urls.LenientAgreesWithProcessUrl | Saved.io++/app/src/main/java/io/github/nfdz/savedio/utils/LenientURL.java:12-23 | the two copies give the same result on every input |
| JavaString.CompareToZeroIffEqual | Saved.io++/app/src/main/java/io/github/nfdz/savedio/model/BookmarkTitleComparator.java:16 | `compareTo` is zero exactly for equal strings |
| JavaString.CompareToIsLexicographic | Saved.io++/app/src/main/java/io/github/nfdz/savedio/model/BookmarkTitleComparator.java:16 | `compareTo` is negative exactly when the first string is a proper prefix of the second or is smaller at the first difference |
| JavaString.CompareToTransitive | Saved.io++/app/src/main/java/io/github/nfdz/savedio/model/BookmarkDateComparator.java:21 | "not after" by `compareTo` is transitive, strictly when one step is strict |
| JavaString.ToLower | Saved.io++/app/src/main/java/io/github/nfdz/savedio/utils/BookmarkFormUtils.java:86 | same length, each upper-case ASCII letter replaced by its lower-case letter and every other character kept |
| JavaString.ToLowerIsIdempotent | Saved.io++/app/src/main/java/io/github/nfdz/savedio/utils/BookmarkFormUtils.java:86 | no ASCII capital is left, every other character is untouched, and lower-casing again changes nothing |
| DateFormat.FieldSpansMatchPattern | Saved.io++/app/src/main/java/io/github/nfdz/savedio/model/Bookmark.java:14-15 | the six calendar fields sit at fixed positions of the pattern, each followed by a separator or the end |
| DateFormat.LexicographicIsChronological | Saved.io++/app/src/main/java/io/github/nfdz/savedio/model/BookmarkDateComparator.java:8-12 | for two well-formed dates, the string comparison is negative exactly when the first is earlier, and zero exactly when all calendar fields agree |
| Comparators.FavoritesSortFirst | Saved.io++/app/src/main/java/io/github/nfdz/savedio/model/BookmarkDateComparator.java:16-19 | under the date and the title order a favorite sorts before a non-favorite, in both argument orders |
| Comparators.DateCompareIsChronological | Saved.io++/app/src/main/java/io/github/nfdz/savedio/model/BookmarkDateComparator.java:20-21 | with equal favorite status the sign is that of the date strings' comparison, and for well-formed dates "before" means "earlier" |
| Comparators.DateCompareAntisymmetric | Saved.io++/app/src/main/java/io/github/nfdz/savedio/model/BookmarkDateComparator.java:15-23 | swapping the arguments negates the result, and a bookmark compares equal to itself |
| Comparators.DateCompareTransitive | Saved.io++/app/src/main/java/io/github/nfdz/savedio/model/BookmarkDateComparator.java:15-23 | "not after" is transitive |
| Comparators.TitleCompareIsLexicographic | Saved.io++/app/src/main/java/io/github/nfdz/savedio/model/BookmarkTitleComparator.java:15-16 | with equal favorite status a bookmark sorts first exactly when its title is lexicographically smaller |
| Comparators.TitleCompareAntisymmetric | Saved.io++/app/src/main/java/io/github/nfdz/savedio/model/BookmarkTitleComparator.java:10-18 | swapping the arguments negates the result, and a bookmark compares equal to itself |
| Comparators.TitleCompareTransitive | Saved.io++/app/src/main/java/io/github/nfdz/savedio/model/BookmarkTitleComparator.java:11-17 | "not after" is transitive |
| Comparators.TitleCompareTiesAreConsistent | Saved.io++/app/src/main/java/io/github/nfdz/savedio/model/BookmarkTitleComparator.java:12-18 | bookmarks that tie compare alike against every third bookmark |
| Comparators.ClicksCompareCannotOverflow | Saved.io++/app/src/main/java/io/github/nfdz/savedio/model/BookmarkClicksComparator.java:11 | with non-negative counters the `int` subtraction is exact, so the more clicked bookmark sorts first |
| Comparators.ClicksCompareAntisymmetric | Saved.io++/app/src/main/java/io/github/nfdz/savedio/model/BookmarkClicksComparator.java:10-12 | with non-negative counters swapping the arguments negates the result, and a bookmark compares equal to itself |
| Comparators.ClicksCompareTransitive | Saved.io++/app/src/main/java/io/github/nfdz/savedio/model/BookmarkClicksComparator.java:9-12 | with non-negative counters "not after" is transitive and means "at least as many clicks" |
| ListForm.CheckCharsListName | Saved.io++/app/src/main/java/io/github/nfdz/savedio/utils/BookmarkFormUtils.java:126-133 | true exactly when every character is 'a'..'z' or '0'..'9' (so the empty name passes) |
| ListForm.CheckValidListName | Saved.io++/app/src/main/java/io/github/nfdz/savedio/utils/BookmarkFormUtils.java:113-124 | accepted exactly for a non-empty name of allowed characters; the empty name is rejected with the empty-name message first, other bad names with the characters message |
| ListForm.SortStrings | Saved.io++/app/src/main/java/io/github/nfdz/savedio/utils/BookmarkFormUtils.java:90 | a permutation of the names, sorted by `compareTo` |
| ListForm.SortSortedIsIdentity | Saved.io++/app/src/main/java/io/github/nfdz/savedio/utils/BookmarkFormUtils.java:88-91 | sorting names that are already strictly sorted changes nothing |
| ListForm.AddListKeepsNamesSorted | Saved.io++/app/src/main/java/io/github/nfdz/savedio/utils/BookmarkFormUtils.java:88-90 | appending a new name to strictly sorted names and sorting gives strictly sorted names, the new one inserted in its place |
| ListForm.OnAddList | Saved.io++/app/src/main/java/io/github/nfdz/savedio/utils/BookmarkFormUtils.java:86-93 | the lower-cased input is checked; a rejected name changes nothing; an accepted one becomes the label and joins the names exactly once unless already there; a newly added name leaves the names sorted; sorted, duplicate-free names stay so |
| ListForm.AcceptedNames | Saved.io++/app/src/main/java/io/github/nfdz/savedio/utils/BookmarkFormUtils.java:86-93 | the input is accepted exactly when it is non-empty and each character is a lower-case ASCII letter, a digit or an ASCII capital |
| ListForm.PreselectedIndex | Saved.io++/app/src/main/java/io/github/nfdz/savedio/utils/BookmarkFormUtils.java:37-47 | the position of the first option equal to the label, or -1 exactly when the label is empty or not on offer |
| ListForm.OnChooseList | Saved.io++/app/src/main/java/io/github/nfdz/savedio/utils/BookmarkFormUtils.java:54-58 | the label is rewritten exactly when the pick is not the preselected option, and afterwards shows the picked name |

## Left out

- Null references. Java `null` strings are not modelled: a missing list name is "", and the `null` that `findFirst` returns for a missing object is the `Failure` of the transaction.
- The object store engine: asynchronous transactions, live query results and rollback. Each transaction body is one atomic pure function. The order a query visits objects is an input, not a property of the engine.
- `RealmUtils.retrieveListNames` and `RealmUtils.getSerializedBookmarks`: read-only queries. In the model the list names are the key set of the store's lists, and exporting is `Serializer.SerializeBookmarks` applied to the stored bookmarks.
- `RealmUtils.cancelAsyncTransaction`: task plumbing with no effect on the store.
- The `clearFavorites` and `markSmartFavorites` error messages: neither transaction body can fail on a store, so they are total functions.
- Setters and getters of `Bookmark`, `BookmarkList` and `SyncResult`: they are datatype field updates and selectors. That a setter changes only its field, and its getter returns the value set, is Dafny's semantics of `b.(f := v)`.
- Textual JSON, `JSONException` and the `serialize_json_error` of `serialize(Bookmark)`: putting four strings into an object cannot fail once JSON is abstracted to maps and sequences.
- JavaString.ToLower: only the ASCII capitals are mapped, as `toLowerCase()` does under an English-like locale. Java applies Unicode case mapping to other characters, and `toLowerCase()` without arguments follows the device's default locale: under a Turkish or Azeri locale "Inbox" becomes "ınbox" (dotless i, U+0131), which the list-name check rejects, whereas the model accepts it as "inbox".
- ListForm.OnAddList: inherits the locale gap of `JavaString.ToLower`; which names are accepted is stated for the ASCII mapping only (`ListForm.AcceptedNames`).
- `String.compareTo`: modelled on Dafny characters. Java compares UTF-16 code units; the two agree for characters of the Basic Multilingual Plane.
- Paging fuel: a service that keeps sending new pages makes the Java loop run forever. The model makes at most `fuel` requests: `Paging.FetchFrom` then returns `OutOfFuel`, which a sync run reports as `Hangs`.
- The Java `long` arithmetic of the staleness test: it is taken as exact; only an overflow of `now - lastSync` could differ.
- `SyncService.OnHandleIntent`: runtime exceptions other than `SyncException` are not modelled, and the stored `SyncResult` object is assumed to exist, as the Java code does.
- `SyncService.OnHandleIntent`: the widget update and the notification display are not modelled; the set of notified list names is returned instead of being posted.
- `Reconcile.ListsToNotify`: the Java code builds an ordered list of names, while the model returns the set of them; each surviving list is visited once, so no name repeats.
- `Reconcile.ReconcileStore`: the updated count is not stated in closed form. It counts one per record that changed a bookmark, so an id whose records differ from each other counts more than once. Which ids are updated is stated by `Reconcile.UpdatedIffChanged`.
- `Favorites.SortByClicks`: stability of `Collections.sort` is not stated.
- Favorites.SmartSelection: among bookmarks with equally many clicks, which ones reach the top ten depends on the query order and the sort's stability; the contract leaves that choice open.
- `Favorites.IncrementClickCounterFavorites`: it does not name which favorite is replaced. `Favorites.FirstWithFewerClicks` states that it is the first one, in query order, with fewer clicks.
- `Comparators.ClicksCompareAntisymmetric`: requires non-negative counters. With a counter that wrapped to a negative value the `int` subtraction can overflow, and the comparator is then neither antisymmetric nor transitive.
- Comparators.ClicksCompareTransitive: requires non-negative counters, for the same reason.
- Android UI and presentation: activities, adapters, widgets, notifications, dialogs, toolbar, `BookmarkFormUtils.URLTextValidator`, `URLUtils.getFaviconPath`.
- Remote API plumbing, `TasksUtils`, `ImportExportUtils`, `PreferencesUtils` and `SyncFirebaseJobService`: I/O, threads and scheduling. Their inputs (the key, the preference, the times) are parameters.

=== FILE: bookmarks.dfy ===
/**
 * The two persisted entities, `Bookmark` and `BookmarkList`, and the local
 * object store that holds them. The store is keyed by the entities' primary
 * keys (bookmark id, list name), so it can hold at most one of each.
 * A list's membership is an ordered sequence of bookmark ids: references to
 * stored bookmarks, not copies of them.
 */
module Bookmarks {

  /** Java `int`. */
  const INT_MIN: int := -0x8000_0000
  const INT_MAX: int := 0x7FFF_FFFF
  type Int32 = x: int | INT_MIN <= x <= INT_MAX

  /** Java `int` addition, wrapping around on overflow. */
  function AddInt32(a: Int32, b: Int32): (r: Int32)
    ensures INT_MIN <= a + b <= INT_MAX ==> r == a + b
    ensures a + b > INT_MAX ==> r == a + b - 0x1_0000_0000
    ensures a + b < INT_MIN ==> r == a + b + 0x1_0000_0000
  {
    var s := a + b;
    if s > INT_MAX then s - 0x1_0000_0000
    else if s < INT_MIN then s + 0x1_0000_0000
    else s
  }

  /** Java `int` subtraction, wrapping around on overflow. */
  function SubInt32(a: Int32, b: Int32): (r: Int32)
    ensures INT_MIN <= a - b <= INT_MAX ==> r == a - b
    ensures a - b > INT_MAX ==> r == a - b - 0x1_0000_0000
    ensures a - b < INT_MIN ==> r == a - b + 0x1_0000_0000
  {
    var d := a - b;
    if d > INT_MAX then d - 0x1_0000_0000
    else if d < INT_MIN then d + 0x1_0000_0000
    else d
  }

  /** The pattern of `Bookmark.DATE_FORMAT`, e.g. 2017-03-02 13:08:41. */
  const DATE_FORMAT: string := "yyyy-MM-dd HH:mm:ss"

  /** Names of the bookmark attributes, used as keys by the serializer. */
  const FIELD_ID: string := "mId"
  const FIELD_URL: string := "mUrl"
  const FIELD_TITLE: string := "mTitle"
  const FIELD_NOTE: string := "mNotes"
  const FIELD_DATE: string := "mDate"
  const FIELD_LIST: string := "mListName"
  const FIELD_FAVORITE: string := "mIsFavorite"

  /** A bookmark. An empty `listName` means the bookmark belongs to no list. */
  datatype Bookmark = Bookmark(
    id: string,
    url: string,
    title: string,
    notes: string,
    date: string,
    listName: string,
    isFavorite: bool,
    clickCounter: Int32)

  /** A freshly created bookmark object with primary key `id`: every other
      attribute has its default value, in particular it is not a favorite. */
  function NewBookmark(id: string): (b: Bookmark)
    ensures b.id == id
    ensures !b.isFavorite && b.clickCounter == 0
    ensures b.listName == "" && b.url == "" && b.title == "" && b.notes == "" && b.date == ""
  {
    Bookmark(id, "", "", "", "", "", false, 0)
  }

  /** `bookmark.incrementClickCounter()`: a Java `int` increment. */
  function IncrementClicks(b: Bookmark): (r: Bookmark)
    ensures b.clickCounter < INT_MAX ==> r.clickCounter == b.clickCounter + 1
    ensures b.clickCounter == INT_MAX ==> r.clickCounter == INT_MIN
    ensures r == b.(clickCounter := r.clickCounter)
  {
    b.(clickCounter := AddInt32(b.clickCounter, 1))
  }

  /** A named list of bookmarks. */
  datatype BookmarkList = BookmarkList(listName: string, bookmarks: seq<string>, notifyFlag: bool)

  /** A freshly created list object: no members and no notification. */
  function NewList(name: string): (l: BookmarkList)
    ensures l.listName == name && |l.bookmarks| == 0 && !l.notifyFlag
  {
    BookmarkList(name, [], false)
  }

  /** The local store: bookmarks by id and lists by name. */
  datatype Store = Store(bookmarks: map<string, Bookmark>, lists: map<string, BookmarkList>)

  /** The invariants of the store that every operation of the application keeps:
      primary keys agree with the keys of the maps, no list has the empty name,
      membership links never dangle, a bookmark with a list name is a member of
      that list, and a list holds only bookmarks that name it. */
  ghost predicate Valid(s: Store)
  {
    && "" !in s.lists
    && (forall id :: id in s.bookmarks ==> s.bookmarks[id].id == id)
    && (forall n :: n in s.lists ==> s.lists[n].listName == n)
    && (forall n, i :: n in s.lists && 0 <= i < |s.lists[n].bookmarks| ==>
          s.lists[n].bookmarks[i] in s.bookmarks &&
          s.bookmarks[s.lists[n].bookmarks[i]].listName == n)
    && (forall id :: id in s.bookmarks && s.bookmarks[id].listName != "" ==>
          s.bookmarks[id].listName in s.lists &&
          id in s.lists[s.bookmarks[id].listName].bookmarks)
  }

  /** No stored list is empty. */
  ghost predicate NoEmptyLists(s: Store)
  {
    forall n :: n in s.lists ==> |s.lists[n].bookmarks| > 0
  }

  /** The membership `ids` with every occurrence of `id` dropped. */
  function Without(ids: seq<string>, id: string): (r: seq<string>)
    ensures forall x :: x in r <==> x in ids && x != id
    ensures |r| <= |ids|
    ensures id !in ids ==> r == ids
  {
    if |ids| == 0 then []
    else if ids[0] == id then Without(ids[1..], id)
    else [ids[0]] + Without(ids[1..], id)
  }

  /** `bookmark.deleteFromRealm()`: the bookmark disappears, and so does every
      link to it from a list's membership. Lists themselves are kept, even
      when they become empty. */
  function DeleteBookmark(s: Store, id: string): (r: Store)
    ensures r.bookmarks == s.bookmarks - {id}
    ensures r.lists.Keys == s.lists.Keys
    ensures forall n :: n in s.lists ==>
      r.lists[n] == s.lists[n].(bookmarks := Without(s.lists[n].bookmarks, id))
  {
    Store(s.bookmarks - {id},
          map n | n in s.lists :: s.lists[n].(bookmarks := Without(s.lists[n].bookmarks, id)))
  }

  /** `list.deleteFromRealm()`. */
  function DeleteList(s: Store, name: string): (r: Store)
    ensures r.bookmarks == s.bookmarks && r.lists == s.lists - {name}
  {
    Store(s.bookmarks, s.lists - {name})
  }

  /** Deleting a bookmark from a valid store leaves a valid store, and the only
      lists it empties are lists the bookmark belonged to. */
  lemma DeleteBookmarkKeepsValid(s: Store, id: string)
    requires Valid(s)
    ensures Valid(DeleteBookmark(s, id))
    ensures forall n ::
      (n in s.lists && |s.lists[n].bookmarks| > 0 && |DeleteBookmark(s, id).lists[n].bookmarks| == 0) ==>
        id in s.bookmarks && s.bookmarks[id].listName == n
  {
    var r := DeleteBookmark(s, id);
    forall n, i | n in r.lists && 0 <= i < |r.lists[n].bookmarks|
      ensures r.lists[n].bookmarks[i] in r.bookmarks
      ensures r.bookmarks[r.lists[n].bookmarks[i]].listName == n
    {
      var x := r.lists[n].bookmarks[i];
      assert x in s.lists[n].bookmarks && x != id;
    }
    forall n | n in s.lists && |s.lists[n].bookmarks| > 0 && |r.lists[n].bookmarks| == 0
      ensures id in s.bookmarks && s.bookmarks[id].listName == n
    {
      var x := s.lists[n].bookmarks[0];
      assert x in s.lists[n].bookmarks;
    }
  }
}

=== FILE: comparators.dfy ===
/**
 * The three orders in which bookmarks are listed: by date and by title (both
 * with favorites first), and by click count (most clicked first).
 * Each is a `java.util.Comparator`: negative means "sorts before".
 */
module Comparators {
  import opened JavaString
  import opened Bookmarks
  import opened DateFormat

  /** `BookmarkDateComparator.compare`: favorites first, then oldest first. */
  function DateCompare(b1: Bookmark, b2: Bookmark): int
  {
    if b1.isFavorite && !b2.isFavorite then -1
    else if !b1.isFavorite && b2.isFavorite then 1
    else CompareTo(b1.date, b2.date)
  }

  /** `BookmarkTitleComparator.compare`: favorites first, then by title. */
  function TitleCompare(b1: Bookmark, b2: Bookmark): int
  {
    if b1.isFavorite && !b2.isFavorite then -1
    else if !b1.isFavorite && b2.isFavorite then 1
    else CompareTo(b1.title, b2.title)
  }

  /** `BookmarkClicksComparator.compare`: the Java `int` difference of the
      counters, second minus first, so more clicks sort first. */
  function ClicksCompare(b1: Bookmark, b2: Bookmark): Int32
  {
    SubInt32(b2.clickCounter, b1.clickCounter)
  }

  /** A favorite sorts before a non-favorite, under both favorite-first orders. */
  lemma FavoritesSortFirst(b1: Bookmark, b2: Bookmark)
    requires b1.isFavorite && !b2.isFavorite
    ensures DateCompare(b1, b2) < 0 && DateCompare(b2, b1) > 0
    ensures TitleCompare(b1, b2) < 0 && TitleCompare(b2, b1) > 0
  {
  }

  /** With equal favorite status the date order is the order of the date
      strings, and for well-formed dates that is chronological, oldest first. */
  lemma DateCompareIsChronological(b1: Bookmark, b2: Bookmark)
    requires b1.isFavorite == b2.isFavorite
    ensures Sign(DateCompare(b1, b2)) == Sign(CompareTo(b1.date, b2.date))
    ensures WellFormedDate(b1.date) && WellFormedDate(b2.date) ==>
      (DateCompare(b1, b2) < 0 <==> ChronologicallyBefore(b1.date, b2.date))
  {
    if WellFormedDate(b1.date) && WellFormedDate(b2.date) {
      LexicographicIsChronological(b1.date, b2.date);
    }
  }

  /** With equal favorite status the title order is the lexicographic order of the titles. */
  lemma TitleCompareIsLexicographic(b1: Bookmark, b2: Bookmark)
    requires b1.isFavorite == b2.isFavorite
    ensures TitleCompare(b1, b2) < 0 <==> LexBefore(b1.title, b2.title)
  {
    CompareToIsLexicographic(b1.title, b2.title);
  }

  lemma DateCompareAntisymmetric(b1: Bookmark, b2: Bookmark)
    ensures DateCompare(b1, b2) == -DateCompare(b2, b1)
    ensures DateCompare(b1, b1) == 0
  {
    CompareToAntisymmetric(b1.date, b2.date);
    CompareToZeroIffEqual(b1.date, b1.date);
  }

  lemma TitleCompareAntisymmetric(b1: Bookmark, b2: Bookmark)
    ensures TitleCompare(b1, b2) == -TitleCompare(b2, b1)
    ensures TitleCompare(b1, b1) == 0
  {
    CompareToAntisymmetric(b1.title, b2.title);
    CompareToZeroIffEqual(b1.title, b1.title);
  }

  lemma DateCompareTransitive(b1: Bookmark, b2: Bookmark, b3: Bookmark)
    requires DateCompare(b1, b2) <= 0 && DateCompare(b2, b3) <= 0
    ensures DateCompare(b1, b3) <= 0
  {
    if b1.isFavorite == b2.isFavorite == b3.isFavorite {
      CompareToTransitive(b1.date, b2.date, b3.date);
    }
  }

  lemma TitleCompareTransitive(b1: Bookmark, b2: Bookmark, b3: Bookmark)
    requires TitleCompare(b1, b2) <= 0 && TitleCompare(b2, b3) <= 0
    ensures TitleCompare(b1, b3) <= 0
  {
    if b1.isFavorite == b2.isFavorite == b3.isFavorite {
      CompareToTransitive(b1.title, b2.title, b3.title);
    }
  }

  /** Bookmarks the title order ties are interchangeable in it (the last
      clause of the `Comparator` contract). */
  lemma TitleCompareTiesAreConsistent(b1: Bookmark, b2: Bookmark, b3: Bookmark)
    requires TitleCompare(b1, b2) == 0
    ensures Sign(TitleCompare(b1, b3)) == Sign(TitleCompare(b2, b3))
  {
    CompareToZeroIffEqual(b1.title, b2.title);
  }

  /** Counters are never negative in practice; then the subtraction cannot
      overflow and the result is the plain difference. */
  lemma ClicksCompareCannotOverflow(b1: Bookmark, b2: Bookmark)
    requires b1.clickCounter >= 0 && b2.clickCounter >= 0
    ensures ClicksCompare(b1, b2) == b2.clickCounter - b1.clickCounter
    ensures ClicksCompare(b1, b2) < 0 <==> b1.clickCounter > b2.clickCounter
  {
  }

  lemma ClicksCompareAntisymmetric(b1: Bookmark, b2: Bookmark)
    requires b1.clickCounter >= 0 && b2.clickCounter >= 0
    ensures ClicksCompare(b1, b2) == -ClicksCompare(b2, b1)
    ensures ClicksCompare(b1, b1) == 0
  {
  }

  lemma ClicksCompareTransitive(b1: Bookmark, b2: Bookmark, b3: Bookmark)
    requires b1.clickCounter >= 0 && b2.clickCounter >= 0 && b3.clickCounter >= 0
    requires ClicksCompare(b1, b2) <= 0 && ClicksCompare(b2, b3) <= 0
    ensures ClicksCompare(b1, b3) <= 0
    ensures b1.clickCounter >= b2.clickCounter >= b3.clickCounter
  {
  }
}

=== FILE: date_format.dfy ===
/**
 * Dates are stored as text in the fixed-width, zero-padded pattern
 * `Bookmark.DATE_FORMAT` ("yyyy-MM-dd HH:mm:ss"). This module defines what a
 * date of that shape is, what its calendar fields are, and proves that
 * comparing two such dates as strings orders them chronologically.
 */
module DateFormat {
  import opened JavaString
  import opened Bookmarks

  predicate IsDigit(c: char)
  {
    '0' <= c <= '9'
  }

  /** The letters of the pattern that stand for one digit each. */
  predicate IsPatternLetter(c: char)
  {
    c == 'y' || c == 'M' || c == 'd' || c == 'H' || c == 'm' || c == 's'
  }

  /** `s` has the shape of `DATE_FORMAT`: a digit wherever the pattern has a
      letter, and the pattern's own character everywhere else. */
  predicate WellFormedDate(s: string)
  {
    |s| == |DATE_FORMAT| &&
    forall i :: 0 <= i < |s| ==>
      if IsPatternLetter(DATE_FORMAT[i]) then IsDigit(s[i]) else s[i] == DATE_FORMAT[i]
  }

  /** Where the six calendar fields (year, month, day, hour, minute, second) sit in the pattern. */
  const FIELD_STARTS: seq<nat> := [0, 5, 8, 11, 14, 17]
  const FIELD_ENDS: seq<nat> := [4, 7, 10, 13, 16, 19]

  lemma FieldSpansMatchPattern()
    ensures DATE_FORMAT[0..4] == "yyyy" && DATE_FORMAT[5..7] == "MM" && DATE_FORMAT[8..10] == "dd"
    ensures DATE_FORMAT[11..13] == "HH" && DATE_FORMAT[14..16] == "mm" && DATE_FORMAT[17..19] == "ss"
    ensures forall j :: 0 <= j < 6 ==> FIELD_ENDS[j] == |DATE_FORMAT| || !IsPatternLetter(DATE_FORMAT[FIELD_ENDS[j]])
  {
    assert |DATE_FORMAT| == 19;
    assert DATE_FORMAT[0..4] == "yyyy" by {
      assert DATE_FORMAT[0] == 'y' && DATE_FORMAT[1] == 'y' && DATE_FORMAT[2] == 'y' && DATE_FORMAT[3] == 'y';
    }
    assert DATE_FORMAT[5..7] == "MM" by { assert DATE_FORMAT[5] == 'M' && DATE_FORMAT[6] == 'M'; }
    assert DATE_FORMAT[8..10] == "dd" by { assert DATE_FORMAT[8] == 'd' && DATE_FORMAT[9] == 'd'; }
    assert DATE_FORMAT[11..13] == "HH" by { assert DATE_FORMAT[11] == 'H' && DATE_FORMAT[12] == 'H'; }
    assert DATE_FORMAT[14..16] == "mm" by { assert DATE_FORMAT[14] == 'm' && DATE_FORMAT[15] == 'm'; }
    assert DATE_FORMAT[17..19] == "ss" by { assert DATE_FORMAT[17] == 's' && DATE_FORMAT[18] == 's'; }
    assert DATE_FORMAT[4] == '-' && DATE_FORMAT[7] == '-' && DATE_FORMAT[10] == ' ';
    assert DATE_FORMAT[13] == ':' && DATE_FORMAT[16] == ':';
    forall j | 0 <= j < 6
      ensures FIELD_ENDS[j] == |DATE_FORMAT| || !IsPatternLetter(DATE_FORMAT[FIELD_ENDS[j]])
    {
      if j < 3 {
        assert j == 0 || j == 1 || j == 2;
      } else {
        assert j == 3 || j == 4 || j == 5;
      }
    }
  }

  function Pow10(n: nat): (r: nat)
    ensures r >= 1
  {
    if n == 0 then 1 else 10 * Pow10(n - 1)
  }

  function DigitValue(c: char): nat
    requires IsDigit(c)
  {
    c as int - '0' as int
  }

  predicate AllDigits(d: string)
  {
    forall i :: 0 <= i < |d| ==> IsDigit(d[i])
  }

  /** The number written by the decimal digits `d`, most significant first. */
  function Number(d: string): nat
    requires AllDigits(d)
  {
    if |d| == 0 then 0 else DigitValue(d[0]) * Pow10(|d| - 1) + Number(d[1..])
  }

  lemma {:induction false} NumberBound(d: string)
    requires AllDigits(d)
    ensures Number(d) < Pow10(|d|)
  {
    if |d| > 0 {
      NumberBound(d[1..]);
      var p := Pow10(|d| - 1);
      var v := DigitValue(d[0]);
      assert v <= 9;
      assert v * p <= 9 * p by {
        MulMonotone(v, 9, p);
      }
      assert Number(d) == v * p + Number(d[1..]);
      assert Pow10(|d|) == 10 * p;
    }
  }

  lemma MulMonotone(a: nat, b: nat, p: nat)
    requires a <= b
    ensures a * p <= b * p
  {
  }

  function Sign(x: int): int
  {
    if x < 0 then -1 else if x > 0 then 1 else 0
  }

  lemma {:induction false} AtLeastOnce(k: nat, p: nat)
    requires k >= 1
    ensures k * p >= p
  {
    if k > 1 {
      AtLeastOnce(k - 1, p);
      assert k * p == (k - 1) * p + p;
    }
  }

  lemma MultiplyMonotone(a: nat, b: nat, p: nat)
    requires a < b
    ensures a * p + p <= b * p
  {
    var d := b - a;
    assert b * p == a * p + d * p;
    AtLeastOnce(d, p);
  }

  /** For digit strings of equal width, string order is numeric order. */
  lemma {:induction false} DigitsCompareAsNumbers(x: string, y: string)
    requires AllDigits(x) && AllDigits(y) && |x| == |y|
    ensures Sign(CompareTo(x, y)) == Sign(Number(x) - Number(y))
    decreases |x|
  {
    if |x| > 0 {
      var p := Pow10(|x| - 1);
      var x', y' := x[1..], y[1..];
      assert AllDigits(x') && AllDigits(y');
      NumberBound(x');
      NumberBound(y');
      var dx, dy := DigitValue(x[0]), DigitValue(y[0]);
      assert Number(x) == dx * p + Number(x');
      assert Number(y) == dy * p + Number(y');
      if dx < dy {
        MultiplyMonotone(dx, dy, p);
        assert CompareTo(x, y) < 0;
      } else if dx > dy {
        MultiplyMonotone(dy, dx, p);
        assert CompareTo(x, y) > 0;
      } else {
        assert x[0] == y[0];
        assert CompareTo(x, y) == CompareTo(x', y');
        DigitsCompareAsNumbers(x', y');
      }
    }
  }

  /** The calendar fields of a well-formed date, as numbers, year first. */
  function Fields(s: string): (f: seq<nat>)
    requires WellFormedDate(s)
    ensures |f| == 6
  {
    seq(6, j requires 0 <= j < 6 =>
      assert forall i :: FIELD_STARTS[j] <= i < FIELD_ENDS[j] ==> IsPatternLetter(DATE_FORMAT[i]);
      Number(s[FIELD_STARTS[j]..FIELD_ENDS[j]]))
  }

  /** Chronological comparison: the fields compared in turn, year first. */
  function CompareFields(f: seq<nat>, g: seq<nat>): int
    requires |f| == |g|
  {
    if |f| == 0 then 0
    else if f[0] < g[0] then -1
    else if f[0] > g[0] then 1
    else CompareFields(f[1..], g[1..])
  }

  /** `a` denotes an earlier moment than `b`. */
  predicate ChronologicallyBefore(a: string, b: string)
    requires WellFormedDate(a) && WellFormedDate(b)
  {
    CompareFields(Fields(a), Fields(b)) < 0
  }

  /** Field `j` of a well-formed date is a run of digits. */
  lemma FieldIsDigits(s: string, j: nat)
    requires WellFormedDate(s) && j < 6
    ensures FIELD_STARTS[j] < FIELD_ENDS[j] <= |s|
    ensures AllDigits(s[FIELD_STARTS[j]..FIELD_ENDS[j]])
    ensures Fields(s)[j] == Number(s[FIELD_STARTS[j]..FIELD_ENDS[j]])
  {
    assert forall i :: FIELD_STARTS[j] <= i < FIELD_ENDS[j] ==> IsPatternLetter(DATE_FORMAT[i]);
  }

  /** Two well-formed dates agree on the separator after field `j`. */
  lemma SeparatorsAgree(a: string, b: string, j: nat)
    requires WellFormedDate(a) && WellFormedDate(b) && j < 5
    ensures FIELD_ENDS[j] + 1 == FIELD_STARTS[j + 1]
    ensures a[FIELD_ENDS[j]] == b[FIELD_ENDS[j]]
  {
    var e := FIELD_ENDS[j];
    assert !IsPatternLetter(DATE_FORMAT[e]);
    assert a[e] == DATE_FORMAT[e] == b[e];
  }

  /** Comparing from the start of field `j`: the field decides unless it is equal. */
  lemma CompareAtField(a: string, b: string, j: nat)
    requires WellFormedDate(a) && WellFormedDate(b) && j < 6
    ensures var st, en := FIELD_STARTS[j], FIELD_ENDS[j];
      if Fields(a)[j] != Fields(b)[j] then
        Sign(CompareTo(a[st..], b[st..])) == Sign(Fields(a)[j] as int - Fields(b)[j] as int)
      else
        CompareTo(a[st..], b[st..]) == CompareTo(a[en..], b[en..])
  {
    var st, en := FIELD_STARTS[j], FIELD_ENDS[j];
    FieldIsDigits(a, j);
    FieldIsDigits(b, j);
    var x, y := a[st..en], b[st..en];
    assert a[st..] == x + a[en..] && b[st..] == y + b[en..];
    CompareToAppend(x, a[en..], y, b[en..]);
    DigitsCompareAsNumbers(x, y);
    CompareToZeroIffEqual(x, y);
  }

  /** Comparing from the end of field `j`: the separator is equal and is skipped. */
  lemma CompareAtSeparator(a: string, b: string, j: nat)
    requires WellFormedDate(a) && WellFormedDate(b) && j < 6
    ensures j == 5 ==> CompareTo(a[FIELD_ENDS[j]..], b[FIELD_ENDS[j]..]) == 0
    ensures j < 5 ==> CompareTo(a[FIELD_ENDS[j]..], b[FIELD_ENDS[j]..]) ==
                      CompareTo(a[FIELD_STARTS[j + 1]..], b[FIELD_STARTS[j + 1]..])
  {
    var en := FIELD_ENDS[j];
    if j == 5 {
      assert a[en..] == [] && b[en..] == [];
    } else {
      SeparatorsAgree(a, b, j);
      var st' := FIELD_STARTS[j + 1];
      assert a[en..] == [a[en]] + a[st'..] && b[en..] == [b[en]] + b[st'..];
      CompareToAppend([a[en]], a[st'..], [b[en]], b[st'..]);
    }
  }

  lemma CompareFieldsStep(f: seq<nat>, g: seq<nat>)
    requires |f| == |g| > 0
    ensures f[0] != g[0] ==> CompareFields(f, g) == Sign(f[0] as int - g[0] as int)
    ensures f[0] == g[0] ==> CompareFields(f, g) == CompareFields(f[1..], g[1..])
  {
  }

  lemma {:induction false} CompareFromField(a: string, b: string, j: nat)
    requires WellFormedDate(a) && WellFormedDate(b) && j < 6
    ensures Sign(CompareTo(a[FIELD_STARTS[j]..], b[FIELD_STARTS[j]..])) ==
            CompareFields(Fields(a)[j..], Fields(b)[j..])
    decreases 6 - j
  {
    var f, g := Fields(a)[j..], Fields(b)[j..];
    assert f[0] == Fields(a)[j] && g[0] == Fields(b)[j];
    CompareFieldsStep(f, g);
    CompareAtField(a, b, j);
    CompareAtSeparator(a, b, j);
    if f[0] == g[0] {
      if j < 5 {
        assert f[1..] == Fields(a)[j + 1..] && g[1..] == Fields(b)[j + 1..];
        CompareFromField(a, b, j + 1);
      }
    }
  }

  /** Comparing two well-formed dates as strings is comparing them in time:
      negative exactly when the first is earlier, zero exactly when they are
      the same moment. */
  lemma LexicographicIsChronological(a: string, b: string)
    requires WellFormedDate(a) && WellFormedDate(b)
    ensures CompareTo(a, b) < 0 <==> ChronologicallyBefore(a, b)
    ensures CompareTo(a, b) == 0 <==> Fields(a) == Fields(b)
  {
    CompareFromField(a, b, 0);
    assert a[0..] == a && b[0..] == b;
    CompareFieldsZero(Fields(a), Fields(b));
  }

  lemma {:induction false} CompareFieldsZero(f: seq<nat>, g: seq<nat>)
    requires |f| == |g|
    ensures CompareFields(f, g) == 0 <==> f == g
  {
    if |f| > 0 {
      CompareFieldsZero(f[1..], g[1..]);
      if f[0] == g[0] && f[1..] == g[1..] {
        assert f == [f[0]] + f[1..] && g == [g[0]] + g[1..];
      }
    }
  }
}

=== FILE: favorites.dfy ===
/**
 * Smart favorites (`RealmUtils.markSmartFavorites` and
 * `RealmUtils.incrementClickCounter`): at most ten favorites, chosen among the
 * bookmarks that have been opened, the most opened first.
 *
 * The store's queries return their objects in an order the store chooses; it
 * is an input here, `order`, which lists every stored bookmark id once.
 */
module Favorites {
  import opened JavaString
  import opened Bookmarks
  import opened Comparators
  import opened StoreOps

  const MAX_FAVORITES: nat := 10
  const INCREMENT_ERROR: string := "There was an error incrementing bookmark click counter."

  function Min(a: nat, b: nat): nat
  {
    if a < b then a else b
  }

  /** `order` is the order in which a query over all bookmarks visits them. */
  ghost predicate Enumerates(order: seq<string>, bms: map<string, Bookmark>)
  {
    NoDuplicates(order) && forall id :: id in order <==> id in bms
  }

  predicate IsFavorite(b: Bookmark)
  {
    b.isFavorite
  }

  predicate IsClicked(b: Bookmark)
  {
    b.clickCounter > 0
  }

  /** The ids of the stored bookmarks that satisfy `keep`. */
  ghost function Matching(bms: map<string, Bookmark>, keep: Bookmark -> bool): set<string>
  {
    set id | id in bms && keep(bms[id])
  }

  /** A query with a filter: the ids of `order` whose bookmark satisfies `keep`, in order. */
  function Select(order: seq<string>, bms: map<string, Bookmark>, keep: Bookmark -> bool): (r: seq<string>)
    ensures forall x :: x in r <==> x in order && x in bms && keep(bms[x])
    ensures NoDuplicates(order) ==> NoDuplicates(r)
  {
    if |order| == 0 then []
    else
      var rest := Select(order[1..], bms, keep);
      if order[0] in bms && keep(bms[order[0]]) then
        SelectHeadIsNew(order, rest);
        [order[0]] + rest
      else rest
  }

  lemma SelectHeadIsNew(order: seq<string>, rest: seq<string>)
    requires |order| > 0 && forall x :: x in rest ==> x in order[1..]
    requires NoDuplicates(order[1..]) ==> NoDuplicates(rest)
    ensures NoDuplicates(order) ==> NoDuplicates([order[0]] + rest)
  {
    if NoDuplicates(order) {
      assert NoDuplicates(order[1..]) by {
        forall i, j | 0 <= i < j < |order[1..]|
          ensures order[1..][i] != order[1..][j]
        {
          assert order[1..][i] == order[i + 1] && order[1..][j] == order[j + 1];
        }
      }
      forall i | 0 <= i < |order[1..]|
        ensures order[1..][i] != order[0]
      {
        assert order[1..][i] == order[i + 1];
      }
      ConsNoDuplicates(order[0], rest);
    }
  }

  /** Over an enumeration of the store, a filtered query returns each matching
      bookmark exactly once, so its size is the number of matching bookmarks. */
  lemma SelectCount(order: seq<string>, bms: map<string, Bookmark>, keep: Bookmark -> bool)
    requires Enumerates(order, bms)
    ensures NoDuplicates(Select(order, bms, keep))
    ensures Elements(Select(order, bms, keep)) == Matching(bms, keep)
    ensures |Select(order, bms, keep)| == |Matching(bms, keep)|
  {
    var r := Select(order, bms, keep);
    assert Elements(r) == Matching(bms, keep);
    DistinctCount(r);
  }

  /** No element occurs twice in a multiset. */
  ghost predicate AtMostOnce(m: multiset<string>)
  {
    forall x :: m[x] <= 1
  }

  lemma {:induction false} DistinctIsAtMostOnce(s: seq<string>)
    requires NoDuplicates(s)
    ensures AtMostOnce(multiset(s))
  {
    if |s| > 0 {
      var t := s[1..];
      assert s == [s[0]] + t;
      assert NoDuplicates(t) by {
        forall i, j | 0 <= i < j < |t|
          ensures t[i] != t[j]
        {
          assert t[i] == s[i + 1] && t[j] == s[j + 1];
        }
      }
      DistinctIsAtMostOnce(t);
      assert s[0] !in t;
      assert multiset(t)[s[0]] == 0;
    }
  }

  lemma {:induction false} AtMostOnceIsDistinct(s: seq<string>)
    requires AtMostOnce(multiset(s))
    ensures NoDuplicates(s)
  {
    if |s| > 0 {
      var t := s[1..];
      assert s == [s[0]] + t;
      assert multiset(s) == multiset{s[0]} + multiset(t);
      assert AtMostOnce(multiset(t)) by {
        forall x
          ensures multiset(t)[x] <= 1
        {
          assert multiset(t)[x] <= multiset(s)[x];
        }
      }
      AtMostOnceIsDistinct(t);
      assert multiset(s)[s[0]] == 1 + multiset(t)[s[0]];
      assert multiset(t)[s[0]] == 0;
      ConsNoDuplicates(s[0], t);
    }
  }

  /** A permutation of a sequence without duplicates has none either. */
  lemma PermutationKeepsDistinct(a: seq<string>, b: seq<string>)
    requires NoDuplicates(a) && multiset(a) == multiset(b)
    ensures NoDuplicates(b)
  {
    DistinctIsAtMostOnce(a);
    AtMostOnceIsDistinct(b);
  }

  /** Every id is stored and has a non-negative click counter. */
  ghost predicate Counted(s: seq<string>, bms: map<string, Bookmark>)
  {
    forall x :: x in s ==> x in bms && bms[x].clickCounter >= 0
  }

  /** Ordered by `BookmarkClicksComparator`: the most clicked first. */
  ghost predicate MostClickedFirst(s: seq<string>, bms: map<string, Bookmark>)
    requires Counted(s, bms)
  {
    forall i, j :: 0 <= i < j < |s| ==> bms[s[i]].clickCounter >= bms[s[j]].clickCounter
  }

  /** One step of a stable sort by `BookmarkClicksComparator`: `x` goes before
      the first element it compares strictly below. */
  function InsertByClicks(s: seq<string>, x: string, bms: map<string, Bookmark>): (r: seq<string>)
    requires Counted(s, bms) && x in bms && bms[x].clickCounter >= 0
    ensures multiset(r) == multiset(s) + multiset{x}
    ensures Counted(r, bms)
    ensures MostClickedFirst(s, bms) ==> MostClickedFirst(r, bms)
  {
    if |s| == 0 then [x]
    else
      ClicksCompareCannotOverflow(bms[x], bms[s[0]]);
      if ClicksCompare(bms[x], bms[s[0]]) < 0 then
        assert forall y :: y in [x] + s ==> y == x || y in s;
        [x] + s
      else
        var tail := InsertByClicks(s[1..], x, bms);
        assert s == [s[0]] + s[1..];
        InsertAfterMoreClicked(s, x, bms, tail);
        [s[0]] + tail
  }

  lemma InsertAfterMoreClicked(s: seq<string>, x: string, bms: map<string, Bookmark>, tail: seq<string>)
    requires |s| > 0 && Counted(s, bms) && x in bms && bms[x].clickCounter <= bms[s[0]].clickCounter
    requires multiset(tail) == multiset(s[1..]) + multiset{x}
    requires Counted(tail, bms)
    requires MostClickedFirst(s[1..], bms) ==> MostClickedFirst(tail, bms)
    ensures Counted([s[0]] + tail, bms)
    ensures MostClickedFirst(s, bms) ==> MostClickedFirst([s[0]] + tail, bms)
  {
    var r := [s[0]] + tail;
    assert forall y :: y in r ==> y == s[0] || y in tail;
    if MostClickedFirst(s, bms) {
      assert MostClickedFirst(s[1..], bms);
      forall j | 0 < j < |r|
        ensures bms[s[0]].clickCounter >= bms[r[j]].clickCounter
      {
        assert r[j] == tail[j - 1];
        assert tail[j - 1] in multiset(tail);
        if tail[j - 1] != x {
          assert tail[j - 1] in s[1..];
          var k :| 0 <= k < |s[1..]| && s[1..][k] == tail[j - 1];
          assert s[k + 1] == tail[j - 1];
        }
      }
    }
  }

  /** `Collections.sort(clicked, new BookmarkClicksComparator())`, a stable sort. */
  function SortByClicks(s: seq<string>, bms: map<string, Bookmark>): (r: seq<string>)
    requires Counted(s, bms)
    ensures multiset(r) == multiset(s)
    ensures Counted(r, bms)
    ensures MostClickedFirst(r, bms)
  {
    if |s| == 0 then []
    else
      assert s == s[..|s| - 1] + [s[|s| - 1]];
      InsertByClicks(SortByClicks(s[..|s| - 1], bms), s[|s| - 1], bms)
  }

  /** The bookmarks `markSmartFavorites` marks: the first ten (or fewer) of the
      opened bookmarks once sorted by clicks. */
  function SmartSelection(s: Store, order: seq<string>): (r: seq<string>)
    requires Enumerates(order, s.bookmarks)
    ensures NoDuplicates(r)
    ensures |r| == Min(MAX_FAVORITES, |Matching(s.bookmarks, IsClicked)|)
    ensures forall x :: x in r ==> x in s.bookmarks && s.bookmarks[x].clickCounter > 0
    ensures forall x, y :: x in r && y in s.bookmarks && s.bookmarks[y].clickCounter > 0 && y !in r ==>
      s.bookmarks[x].clickCounter >= s.bookmarks[y].clickCounter
  {
    var clicked := Select(order, s.bookmarks, IsClicked);
    var sorted := SortByClicks(clicked, s.bookmarks);
    var top := sorted[..Min(MAX_FAVORITES, |sorted|)];
    SelectionProperties(s, order, clicked, sorted, top);
    top
  }

  lemma SelectionProperties(s: Store, order: seq<string>, clicked: seq<string>, sorted: seq<string>, top: seq<string>)
    requires Enumerates(order, s.bookmarks)
    requires clicked == Select(order, s.bookmarks, IsClicked)
    requires Counted(sorted, s.bookmarks) && multiset(sorted) == multiset(clicked)
    requires MostClickedFirst(sorted, s.bookmarks)
    requires top == sorted[..Min(MAX_FAVORITES, |sorted|)]
    ensures NoDuplicates(top)
    ensures |top| == Min(MAX_FAVORITES, |Matching(s.bookmarks, IsClicked)|)
    ensures forall x :: x in top ==> x in s.bookmarks && s.bookmarks[x].clickCounter > 0
    ensures forall x, y :: x in top && y in s.bookmarks && s.bookmarks[y].clickCounter > 0 && y !in top ==>
      s.bookmarks[x].clickCounter >= s.bookmarks[y].clickCounter
  {
    var bms := s.bookmarks;
    SelectCount(order, bms, IsClicked);
    PermutationKeepsDistinct(clicked, sorted);
    assert |sorted| == |clicked| by {
      assert |multiset(sorted)| == |multiset(clicked)|;
    }
    PrefixIsDistinct(sorted, |top|);
    forall x | x in top
      ensures x in bms && bms[x].clickCounter > 0
    {
      assert x in multiset(clicked);
    }
    forall y | y in bms && bms[y].clickCounter > 0 && y !in top
      ensures forall x :: x in top ==> bms[x].clickCounter >= bms[y].clickCounter
    {
      assert y in multiset(sorted);
      PrefixIsMostClicked(sorted, bms, |top|, y);
    }
  }

  lemma PrefixIsDistinct(s: seq<string>, m: nat)
    requires NoDuplicates(s) && m <= |s|
    ensures NoDuplicates(s[..m])
  {
    forall i, j | 0 <= i < j < m
      ensures s[..m][i] != s[..m][j]
    {
      assert s[..m][i] == s[i] && s[..m][j] == s[j];
    }
  }

  /** In a sequence sorted most clicked first, every element of a prefix has at
      least as many clicks as any element after it. */
  lemma PrefixIsMostClicked(s: seq<string>, bms: map<string, Bookmark>, m: nat, y: string)
    requires Counted(s, bms) && MostClickedFirst(s, bms) && m <= |s|
    requires y in s && y !in s[..m]
    ensures forall x :: x in s[..m] ==> bms[x].clickCounter >= bms[y].clickCounter
  {
    var j :| 0 <= j < |s| && s[j] == y;
    forall k | 0 <= k < m
      ensures s[k] != y
    {
      assert s[..m][k] == s[k];
    }
    forall x | x in s[..m]
      ensures bms[x].clickCounter >= bms[y].clickCounter
    {
      var i :| 0 <= i < m && s[..m][i] == x;
      assert s[i] == x;
    }
  }

  /** `markSmartFavorites`: the selected bookmarks become favorites; nothing
      else changes (in particular no favorite is cleared). */
  function MarkSmartFavorites(s: Store, order: seq<string>): (r: Store)
    requires Enumerates(order, s.bookmarks)
    ensures r.lists == s.lists && r.bookmarks.Keys == s.bookmarks.Keys
    ensures forall id :: id in s.bookmarks ==>
      r.bookmarks[id].isFavorite == (s.bookmarks[id].isFavorite || id in SmartSelection(s, order))
    ensures forall id :: id in s.bookmarks ==>
      r.bookmarks[id].(isFavorite := s.bookmarks[id].isFavorite) == s.bookmarks[id]
    ensures Valid(s) ==> Valid(r)
  {
    var top := SmartSelection(s, order);
    s.(bookmarks := map id | id in s.bookmarks ::
      if id in top then s.bookmarks[id].(isFavorite := true) else s.bookmarks[id])
  }

  /** Clearing the favorites and then marking the smart ones (what enabling smart
      favorites does) leaves exactly the selection as favorites: the ten most
      opened bookmarks, or all opened ones when fewer have been opened. */
  lemma ClearThenMark(s: Store, order: seq<string>)
    requires Enumerates(order, s.bookmarks)
    ensures var c := ClearFavorites(s);
      Enumerates(order, c.bookmarks) &&
      var r := MarkSmartFavorites(c, order);
      && Matching(r.bookmarks, IsFavorite) == Elements(SmartSelection(c, order))
      && |Matching(r.bookmarks, IsFavorite)| == Min(MAX_FAVORITES, |Matching(s.bookmarks, IsClicked)|)
      && (forall id :: id in r.bookmarks && r.bookmarks[id].isFavorite ==>
            forall y :: y in r.bookmarks && !r.bookmarks[y].isFavorite && r.bookmarks[y].clickCounter > 0 ==>
              r.bookmarks[id].clickCounter >= r.bookmarks[y].clickCounter)
  {
    var c := ClearFavorites(s);
    assert Matching(c.bookmarks, IsClicked) == Matching(s.bookmarks, IsClicked);
    MarkWithoutFavorites(c, order);
  }

  /** Marking a store that has no favorites makes the selection the favorites. */
  lemma MarkWithoutFavorites(c: Store, order: seq<string>)
    requires Enumerates(order, c.bookmarks)
    requires forall id :: id in c.bookmarks ==> !c.bookmarks[id].isFavorite
    ensures var r := MarkSmartFavorites(c, order);
      && Matching(r.bookmarks, IsFavorite) == Elements(SmartSelection(c, order))
      && |Matching(r.bookmarks, IsFavorite)| == Min(MAX_FAVORITES, |Matching(c.bookmarks, IsClicked)|)
      && (forall id :: id in r.bookmarks && r.bookmarks[id].isFavorite ==>
            forall y :: y in r.bookmarks && !r.bookmarks[y].isFavorite && r.bookmarks[y].clickCounter > 0 ==>
              r.bookmarks[id].clickCounter >= r.bookmarks[y].clickCounter)
  {
    var r := MarkSmartFavorites(c, order);
    var top := SmartSelection(c, order);
    assert Matching(r.bookmarks, IsFavorite) == Elements(top);
    DistinctCount(top);
  }

  /** The first favorite, in query order, opened fewer than `clicks` times;
      `|favorites|` when there is none. */
  function FirstWithFewerClicks(favorites: seq<string>, bms: map<string, Bookmark>, clicks: int): (k: nat)
    requires forall x :: x in favorites ==> x in bms
    ensures k <= |favorites|
    ensures forall j :: 0 <= j < k ==> bms[favorites[j]].clickCounter >= clicks
    ensures k < |favorites| ==> bms[favorites[k]].clickCounter < clicks
  {
    if |favorites| == 0 then 0
    else if bms[favorites[0]].clickCounter < clicks then 0
    else
      var k := FirstWithFewerClicks(favorites[1..], bms, clicks);
      assert forall j :: 0 < j <= k ==> favorites[j] == favorites[1..][j - 1];
      1 + k
  }

  /** `incrementClickCounter`: one more click; with smart favorites on, a
      bookmark that is not a favorite joins the favorites while there are fewer
      than ten, and otherwise replaces the first favorite with fewer clicks. */
  function IncrementClickCounter(s: Store, id: string, smartFavorites: bool, order: seq<string>): (r: Outcome<Store>)
    requires Enumerates(order, s.bookmarks)
    ensures id !in s.bookmarks <==> r == Failure(INCREMENT_ERROR)
    ensures r.Success? ==> r.value.lists == s.lists && r.value.bookmarks.Keys == s.bookmarks.Keys
    ensures r.Success? ==> r.value.bookmarks[id].clickCounter == IncrementClicks(s.bookmarks[id]).clickCounter
    ensures r.Success? ==> forall x :: x in s.bookmarks && x != id ==>
      r.value.bookmarks[x].clickCounter == s.bookmarks[x].clickCounter
    ensures r.Success? ==> forall x :: x in s.bookmarks ==>
      r.value.bookmarks[x] == s.bookmarks[x].(clickCounter := r.value.bookmarks[x].clickCounter,
                                              isFavorite := r.value.bookmarks[x].isFavorite)
    ensures r.Success? && (!smartFavorites || s.bookmarks[id].isFavorite) ==>
      forall x :: x in s.bookmarks ==> r.value.bookmarks[x].isFavorite == s.bookmarks[x].isFavorite
    ensures r.Success? && Valid(s) ==> Valid(r.value)
  {
    if id !in s.bookmarks then Failure(INCREMENT_ERROR)
    else
      var r := s.(bookmarks := IncrementedBookmarks(s, id, smartFavorites, order));
      SameLinksKeepValid(s, r);
      Success(r)
  }

  /** The bookmarks after `incrementClickCounter`'s transaction. */
  function IncrementedBookmarks(s: Store, id: string, smartFavorites: bool, order: seq<string>): (r: map<string, Bookmark>)
    requires Enumerates(order, s.bookmarks) && id in s.bookmarks
    ensures r.Keys == s.bookmarks.Keys
    ensures r[id].clickCounter == IncrementClicks(s.bookmarks[id]).clickCounter
    ensures forall x :: x in s.bookmarks && x != id ==> r[x].clickCounter == s.bookmarks[x].clickCounter
    ensures forall x :: x in s.bookmarks ==>
      r[x] == s.bookmarks[x].(clickCounter := r[x].clickCounter, isFavorite := r[x].isFavorite)
    ensures !smartFavorites || s.bookmarks[id].isFavorite ==>
      forall x :: x in s.bookmarks ==> r[x].isFavorite == s.bookmarks[x].isFavorite
  {
    var b := IncrementClicks(s.bookmarks[id]);
    var bms := s.bookmarks[id := b];
    if smartFavorites && !b.isFavorite then Promote(bms, id, order) else bms
  }

  /** The smart-favorite step of `incrementClickCounter`, once the click is counted. */
  function Promote(bms: map<string, Bookmark>, id: string, order: seq<string>): (r: map<string, Bookmark>)
    requires Enumerates(order, bms) && id in bms && !bms[id].isFavorite
    ensures r.Keys == bms.Keys
    ensures forall x :: x in bms ==> r[x] == bms[x].(isFavorite := r[x].isFavorite)
  {
    var favorites := Select(order, bms, IsFavorite);
    if |favorites| < MAX_FAVORITES then bms[id := bms[id].(isFavorite := true)]
    else
      var k := FirstWithFewerClicks(favorites, bms, bms[id].clickCounter);
      if k == |favorites| then bms
      else
        var v := favorites[k];
        bms[v := bms[v].(isFavorite := false)][id := bms[id].(isFavorite := true)]
  }

  /** Changing only flags and counters of stored bookmarks keeps the store valid. */
  lemma SameLinksKeepValid(s: Store, r: Store)
    requires r.lists == s.lists && r.bookmarks.Keys == s.bookmarks.Keys
    requires forall x :: x in s.bookmarks ==>
      r.bookmarks[x].id == s.bookmarks[x].id && r.bookmarks[x].listName == s.bookmarks[x].listName
    ensures Valid(s) ==> Valid(r)
  {
  }

  /** With smart favorites on and a bookmark that is not yet a favorite: below
      ten favorites it simply joins them; at ten or more it either replaces
      exactly one favorite that has fewer clicks than it now has, or changes
      nothing because every favorite has at least as many clicks. Either way
      ten favorites stay at most ten. */
  lemma IncrementClickCounterFavorites(s: Store, id: string, order: seq<string>)
    requires Enumerates(order, s.bookmarks) && id in s.bookmarks && !s.bookmarks[id].isFavorite
    ensures IncrementClickCounter(s, id, true, order).Success?
    ensures var r := IncrementClickCounter(s, id, true, order).value.bookmarks;
      var before := Matching(s.bookmarks, IsFavorite);
      var after := Matching(r, IsFavorite);
      var clicks := r[id].clickCounter;
      && (|before| < MAX_FAVORITES ==> after == before + {id})
      && (|before| >= MAX_FAVORITES ==>
            || (after == before && forall v :: v in before ==> s.bookmarks[v].clickCounter >= clicks)
            || (exists v :: v in before && s.bookmarks[v].clickCounter < clicks && after == before - {v} + {id}))
      && (|before| <= MAX_FAVORITES ==> |after| <= MAX_FAVORITES)
  {
    var bms := s.bookmarks[id := IncrementClicks(s.bookmarks[id])];
    assert Matching(bms, IsFavorite) == Matching(s.bookmarks, IsFavorite);
    assert forall v :: v in Matching(bms, IsFavorite) ==> bms[v].clickCounter == s.bookmarks[v].clickCounter;
    PromoteFavorites(bms, id, order);
  }

  /** The same, stated on the counted bookmarks. */
  lemma PromoteFavorites(bms: map<string, Bookmark>, id: string, order: seq<string>)
    requires Enumerates(order, bms) && id in bms && !bms[id].isFavorite
    ensures var r := Promote(bms, id, order);
      var before := Matching(bms, IsFavorite);
      var after := Matching(r, IsFavorite);
      var clicks := bms[id].clickCounter;
      && (|before| < MAX_FAVORITES ==> after == before + {id})
      && (|before| >= MAX_FAVORITES ==>
            || (after == before && forall v :: v in before ==> bms[v].clickCounter >= clicks)
            || (exists v :: v in before && bms[v].clickCounter < clicks && after == before - {v} + {id}))
      && (|before| <= MAX_FAVORITES ==> |after| <= MAX_FAVORITES)
  {
    var before := Matching(bms, IsFavorite);
    var favorites := Select(order, bms, IsFavorite);
    var r := Promote(bms, id, order);
    SelectCount(order, bms, IsFavorite);
    if |favorites| < MAX_FAVORITES {
      SetFlag(bms, id, true);
      assert |before + {id}| == |before| + 1;
    } else {
      var k := FirstWithFewerClicks(favorites, bms, bms[id].clickCounter);
      if k == |favorites| {
        forall v | v in before
          ensures bms[v].clickCounter >= bms[id].clickCounter
        {
          assert v in Elements(favorites);
          var j :| 0 <= j < |favorites| && favorites[j] == v;
        }
      } else {
        var v := favorites[k];
        assert v in Elements(favorites);
        var cleared := bms[v := bms[v].(isFavorite := false)];
        SetFlag(bms, v, false);
        SetFlag(cleared, id, true);
        assert Matching(r, IsFavorite) == before - {v} + {id};
        assert |before - {v}| == |before| - 1;
      }
    }
  }

  /** Setting one bookmark's favorite flag adds it to, or removes it from, the favorites. */
  lemma SetFlag(bms: map<string, Bookmark>, x: string, f: bool)
    requires x in bms
    ensures Matching(bms[x := bms[x].(isFavorite := f)], IsFavorite) ==
      if f then Matching(bms, IsFavorite) + {x} else Matching(bms, IsFavorite) - {x}
  {
  }
}

=== FILE: java_string.dfy ===
/**
 * The few `java.lang.String` operations the application relies on:
 * `compareTo` (lexicographic order on code units), `contains`, `isEmpty`,
 * and the ASCII part of `toLowerCase`.
 */
module JavaString {

  /** `a.compareTo(b)`: the difference of the first differing characters,
      or the difference of the lengths when one string is a prefix of the other. */
  function CompareTo(a: string, b: string): int
    decreases |a|
  {
    if |a| == 0 || |b| == 0 then |a| - |b|
    else if a[0] != b[0] then a[0] as int - b[0] as int
    else CompareTo(a[1..], b[1..])
  }

  /** Lexicographic "strictly before", stated independently of `CompareTo`:
      either a proper prefix, or smaller at the first position where they differ. */
  ghost predicate LexBefore(a: string, b: string)
  {
    (|a| < |b| && a == b[..|a|]) ||
    exists k :: 0 <= k < |a| && k < |b| && a[..k] == b[..k] && a[k] < b[k]
  }

  lemma {:induction false} CompareToZeroIffEqual(a: string, b: string)
    ensures CompareTo(a, b) == 0 <==> a == b
    decreases |a|
  {
    if |a| == 0 || |b| == 0 {
    } else if a[0] != b[0] {
      assert a != b;
    } else {
      CompareToZeroIffEqual(a[1..], b[1..]);
      assert a == [a[0]] + a[1..] && b == [b[0]] + b[1..];
    }
  }

  lemma {:induction false} CompareToAntisymmetric(a: string, b: string)
    ensures CompareTo(a, b) == -CompareTo(b, a)
    decreases |a|
  {
    if |a| == 0 || |b| == 0 {
    } else if a[0] != b[0] {
    } else {
      CompareToAntisymmetric(a[1..], b[1..]);
    }
  }

  /** The sign of `compareTo` is lexicographic order. */
  lemma {:induction false} CompareToIsLexicographic(a: string, b: string)
    ensures CompareTo(a, b) < 0 <==> LexBefore(a, b)
    decreases |a|
  {
    if |a| == 0 || |b| == 0 {
      if |a| == 0 && |b| > 0 {
        assert a == b[..|a|];
      }
    } else if a[0] != b[0] {
      if a[0] < b[0] {
        assert a[..0] == b[..0];
      } else {
        assert |a| <= |b| ==> b[..|a|][0] == b[0];
        forall k | 0 < k < |a| && k < |b|
          ensures a[..k] != b[..k]
        {
          assert a[..k][0] == a[0] && b[..k][0] == b[0];
        }
      }
    } else {
      var a', b' := a[1..], b[1..];
      CompareToIsLexicographic(a', b');
      if LexBefore(a', b') {
        if |a'| < |b'| && a' == b'[..|a'|] {
          assert a == b[..|a|];
        } else {
          var k :| 0 <= k < |a'| && k < |b'| && a'[..k] == b'[..k] && a'[k] < b'[k];
          assert a[..k + 1] == [a[0]] + a'[..k];
          assert b[..k + 1] == [b[0]] + b'[..k];
          assert a[k + 1] == a'[k] && b[k + 1] == b'[k];
        }
      }
      if LexBefore(a, b) {
        if |a| < |b| && a == b[..|a|] {
          assert a' == b'[..|a'|];
        } else {
          var k :| 0 <= k < |a| && k < |b| && a[..k] == b[..k] && a[k] < b[k];
          assert k > 0;
          assert a'[..k - 1] == a[..k][1..] && b'[..k - 1] == b[..k][1..];
          assert a'[k - 1] == a[k] && b'[k - 1] == b[k];
        }
      }
    }
  }

  /** `compareTo` is a total order: "not after" is transitive. */
  lemma {:induction false} CompareToTransitive(a: string, b: string, c: string)
    requires CompareTo(a, b) <= 0 && CompareTo(b, c) <= 0
    ensures CompareTo(a, c) <= 0
    ensures CompareTo(a, b) < 0 || CompareTo(b, c) < 0 ==> CompareTo(a, c) < 0
    decreases |a|
  {
    if |a| == 0 || |b| == 0 || |c| == 0 {
    } else if a[0] != b[0] || b[0] != c[0] {
    } else {
      CompareToTransitive(a[1..], b[1..], c[1..]);
    }
  }

  /** `CompareTo(a + r, b + q)` with `|a| == |b|` is decided by `a` and `b` unless they are equal. */
  lemma {:induction false} CompareToAppend(a: string, r: string, b: string, q: string)
    requires |a| == |b|
    ensures a == b ==> CompareTo(a + r, b + q) == CompareTo(r, q)
    ensures a != b ==> CompareTo(a + r, b + q) == CompareTo(a, b)
    decreases |a|
  {
    if |a| == 0 {
      assert a + r == r && b + q == q;
    } else {
      assert (a + r)[0] == a[0] && (b + q)[0] == b[0];
      assert (a + r)[1..] == a[1..] + r && (b + q)[1..] == b[1..] + q;
      CompareToAppend(a[1..], r, b[1..], q);
      if a[0] == b[0] && a[1..] == b[1..] {
        assert a == [a[0]] + a[1..] && b == [b[0]] + b[1..];
      }
    }
  }

  /** `s.contains(t)`. */
  predicate Contains(s: string, t: string)
  {
    exists i | 0 <= i <= |s| - |t| :: OccursAt(s, t, i)
  }

  /** `t` occurs in `s` starting at index `i`. */
  predicate OccursAt(s: string, t: string, i: int)
  {
    0 <= i <= |s| - |t| && s[i..i + |t|] == t
  }

  /** The ASCII part of `toLowerCase`. */
  function ToLowerChar(c: char): (r: char)
    ensures 'A' <= c <= 'Z' ==> 'a' <= r <= 'z' && r as int == c as int + 32
    ensures !('A' <= c <= 'Z') ==> r == c
  {
    if 'A' <= c <= 'Z' then (c as int + 32) as char else c
  }

  function ToLower(s: string): (r: string)
    ensures |r| == |s|
    ensures forall i :: 0 <= i < |s| ==> r[i] == ToLowerChar(s[i])
  {
    seq(|s|, i requires 0 <= i < |s| => ToLowerChar(s[i]))
  }

  /** Lower-casing leaves no ASCII capital behind and changes nothing else,
      so lower-casing twice is lower-casing once. */
  lemma ToLowerIsIdempotent(s: string)
    ensures forall i :: 0 <= i < |s| ==> !('A' <= ToLower(s)[i] <= 'Z')
    ensures forall i :: 0 <= i < |s| && !('A' <= s[i] <= 'Z') ==> ToLower(s)[i] == s[i]
    ensures ToLower(ToLower(s)) == ToLower(s)
  {
  }

  /** `List<String>` sorted by `compareTo`, each element strictly before the next. */
  predicate StrictlySorted(s: seq<string>)
  {
    forall i, j :: 0 <= i < j < |s| ==> CompareTo(s[i], s[j]) < 0
  }

  predicate NoDuplicates<T(==)>(s: seq<T>)
  {
    forall i, j :: 0 <= i < j < |s| ==> s[i] != s[j]
  }

  lemma StrictlySortedHasNoDuplicates(s: seq<string>)
    requires StrictlySorted(s)
    ensures NoDuplicates(s)
  {
    forall i, j | 0 <= i < j < |s|
      ensures s[i] != s[j]
    {
      CompareToZeroIffEqual(s[i], s[j]);
    }
  }

  /** The set of elements of a sequence. */
  ghost function Elements(s: seq<string>): set<string>
  {
    set x | x in s
  }

  lemma ElementsCons(s: seq<string>)
    requires |s| > 0
    ensures Elements(s) == {s[0]} + Elements(s[1..])
  {
    assert s == [s[0]] + s[1..];
  }

  lemma ConsNoDuplicates(h: string, t: seq<string>)
    requires h !in t && NoDuplicates(t)
    ensures NoDuplicates([h] + t)
  {
    var s := [h] + t;
    forall i, j | 0 <= i < j < |s|
      ensures s[i] != s[j]
    {
      assert s[j] == t[j - 1];
      if i > 0 {
        assert s[i] == t[i - 1];
      }
    }
  }

  /** A sequence without duplicates has as many elements as its set. */
  lemma {:induction false} DistinctCount(s: seq<string>)
    requires NoDuplicates(s)
    ensures |Elements(s)| == |s|
  {
    if |s| > 0 {
      var t := s[1..];
      assert NoDuplicates(t) by {
        forall i, j | 0 <= i < j < |t|
          ensures t[i] != t[j]
        {
          assert t[i] == s[i + 1] && t[j] == s[j + 1];
        }
      }
      DistinctCount(t);
      assert Elements(s) == {s[0]} + Elements(t);
      assert s[0] !in Elements(t);
    }
  }
}

=== FILE: list_form.dfy ===
/**
 * The list part of the bookmark form (`BookmarkFormUtils`): validating a new
 * list name, adding it to the sorted names on offer, and choosing one of them.
 * Dialogs are replaced by their outcome: the text typed in, or the index picked.
 */
module ListForm {
  import opened JavaString

  /** A character allowed in a list name: 'a'..'z' or '0'..'9'. */
  predicate IsListNameChar(c: char)
  {
    ('a' <= c <= 'z') || ('0' <= c <= '9')
  }

  /** `checkCharsListName`: every character is allowed (so "" passes). */
  method CheckCharsListName(listName: string) returns (ok: bool)
    ensures ok <==> forall i :: 0 <= i < |listName| ==> IsListNameChar(listName[i])
  {
    var k := 0;
    while k < |listName|
      invariant 0 <= k <= |listName|
      invariant forall i :: 0 <= i < k ==> IsListNameChar(listName[i])
    {
      var l := listName[k];
      if 'a' <= l <= 'z' {
        k := k + 1;
        continue;
      }
      if '0' <= l <= '9' {
        k := k + 1;
        continue;
      }
      return false;
    }
    return true;
  }

  const EMPTY_NAME_MESSAGE: string := "List name must not be empty"
  const INVALID_CHARS_MESSAGE: string :=
    "List name must contains only alphabetic (a-z) and numeric (0-9) characters"

  /** Outcome of `checkValidListName`: accepted, or rejected with the message shown to the user. */
  datatype NameCheck = Accepted | Rejected(message: string)

  /** A list name the form accepts. */
  predicate ValidListName(name: string)
  {
    |name| > 0 && forall i :: 0 <= i < |name| ==> IsListNameChar(name[i])
  }

  /** `checkValidListName`: emptiness is reported first, then bad characters. */
  method CheckValidListName(listName: string) returns (r: NameCheck)
    ensures r.Accepted? <==> ValidListName(listName)
    ensures |listName| == 0 ==> r == Rejected(EMPTY_NAME_MESSAGE)
    ensures |listName| > 0 && !ValidListName(listName) ==> r == Rejected(INVALID_CHARS_MESSAGE)
  {
    if |listName| == 0 {
      return Rejected(EMPTY_NAME_MESSAGE);
    }
    var charsOk := CheckCharsListName(listName);
    if !charsOk {
      return Rejected(INVALID_CHARS_MESSAGE);
    }
    return Accepted;
  }

  /** Sorted by `compareTo`, ties allowed. */
  ghost predicate Sorted(s: seq<string>)
  {
    forall i, j :: 0 <= i < j < |s| ==> CompareTo(s[i], s[j]) <= 0
  }

  /** One step of insertion sort: `x` goes before the first element it is strictly below. */
  function Insert(s: seq<string>, x: string): (r: seq<string>)
    ensures multiset(r) == multiset(s) + multiset{x}
    ensures Sorted(s) ==> Sorted(r)
    ensures StrictlySorted(s) && x !in s ==> StrictlySorted(r)
  {
    if |s| == 0 then [x]
    else if CompareTo(x, s[0]) < 0 then
      assert forall j :: 0 < j < |s| && Sorted(s) ==> CompareTo(s[0], s[j]) <= 0;
      InsertBeforeHead(s, x);
      [x] + s
    else
      var tail := Insert(s[1..], x);
      assert s == [s[0]] + s[1..];
      InsertAfterHead(s, x, tail);
      [s[0]] + tail
  }

  lemma ConsSorted(h: string, t: seq<string>)
    requires forall j :: 0 <= j < |t| ==> CompareTo(h, t[j]) <= 0
    ensures Sorted(t) ==> Sorted([h] + t)
    ensures StrictlySorted(t) && (forall j :: 0 <= j < |t| ==> CompareTo(h, t[j]) < 0) ==>
      StrictlySorted([h] + t)
  {
  }

  lemma InsertBeforeHead(s: seq<string>, x: string)
    requires |s| > 0 && CompareTo(x, s[0]) < 0
    ensures Sorted(s) ==> Sorted([x] + s)
    ensures StrictlySorted(s) ==> StrictlySorted([x] + s)
  {
    if Sorted(s) {
      forall j | 0 <= j < |s|
        ensures CompareTo(x, s[j]) < 0
      {
        if j > 0 {
          CompareToTransitive(x, s[0], s[j]);
        }
      }
      ConsSorted(x, s);
    }
  }

  lemma TailMembers(s1: seq<string>, x: string, tail: seq<string>)
    requires multiset(tail) == multiset(s1) + multiset{x}
    ensures forall j :: 0 <= j < |tail| ==> tail[j] == x || tail[j] in s1
  {
    forall j | 0 <= j < |tail|
      ensures tail[j] == x || tail[j] in s1
    {
      assert tail[j] in multiset(tail);
    }
  }

  lemma InsertAfterHead(s: seq<string>, x: string, tail: seq<string>)
    requires |s| > 0 && CompareTo(x, s[0]) >= 0
    requires multiset(tail) == multiset(s[1..]) + multiset{x}
    requires Sorted(s[1..]) ==> Sorted(tail)
    requires StrictlySorted(s[1..]) && x !in s[1..] ==> StrictlySorted(tail)
    ensures Sorted(s) ==> Sorted([s[0]] + tail)
    ensures StrictlySorted(s) && x !in s ==> StrictlySorted([s[0]] + tail)
  {
    var s1 := s[1..];
    CompareToAntisymmetric(x, s[0]);
    TailMembers(s1, x, tail);
    if Sorted(s) {
      assert Sorted(s1);
      forall j | 0 <= j < |tail|
        ensures CompareTo(s[0], tail[j]) <= 0
      {
        if tail[j] != x {
          var k :| 0 <= k < |s1| && s1[k] == tail[j];
          assert s[k + 1] == tail[j];
        }
      }
      ConsSorted(s[0], tail);
    }
    if StrictlySorted(s) && x !in s {
      assert StrictlySorted(s1) && x !in s1;
      forall j | 0 <= j < |tail|
        ensures CompareTo(s[0], tail[j]) < 0
      {
        if tail[j] != x {
          var k :| 0 <= k < |s1| && s1[k] == tail[j];
          assert s[k + 1] == tail[j];
        } else {
          CompareToZeroIffEqual(x, s[0]);
        }
      }
      ConsSorted(s[0], tail);
    }
  }

  /** `Collections.sort` on list names. */
  function SortStrings(s: seq<string>): (r: seq<string>)
    ensures multiset(r) == multiset(s)
    ensures Sorted(r)
  {
    if |s| == 0 then []
    else
      assert s == s[..|s| - 1] + [s[|s| - 1]];
      Insert(SortStrings(s[..|s| - 1]), s[|s| - 1])
  }

  /** Sorting a strictly sorted list changes nothing. */
  lemma {:induction false} SortSortedIsIdentity(s: seq<string>)
    requires StrictlySorted(s)
    ensures SortStrings(s) == s
  {
    if |s| > 0 {
      var init, last := s[..|s| - 1], s[|s| - 1];
      assert StrictlySorted(init) by {
        forall i, j | 0 <= i < j < |init|
          ensures CompareTo(init[i], init[j]) < 0
        {
          assert init[i] == s[i] && init[j] == s[j];
        }
      }
      forall i | 0 <= i < |init|
        ensures CompareTo(init[i], last) < 0
      {
        assert init[i] == s[i];
      }
      SortSortedIsIdentity(init);
      InsertLargest(init, last);
      assert s == init + [last];
    }
  }

  lemma {:induction false} InsertLargest(s: seq<string>, x: string)
    requires forall i :: 0 <= i < |s| ==> CompareTo(s[i], x) < 0
    ensures Insert(s, x) == s + [x]
  {
    if |s| > 0 {
      CompareToAntisymmetric(s[0], x);
      InsertLargest(s[1..], x);
      assert s == [s[0]] + s[1..];
    }
  }

  /** The effect of the "Add" button: the names on offer and the label shown. */
  datatype FormState = FormState(availableLists: seq<string>, selectedLabel: string)

  /** `onAddListClick` once the user confirms `input`: the lower-cased name is
      validated; a valid name joins the names on offer (kept sorted) unless it
      is already there, and becomes the label. */
  method OnAddList(form: FormState, input: string) returns (r: FormState, check: NameCheck)
    ensures check.Accepted? <==> ValidListName(ToLower(input))
    ensures check.Accepted? ==> r.selectedLabel == ToLower(input)
    ensures check.Rejected? ==> r == form
    ensures ToLower(input) in form.availableLists ==> r.availableLists == form.availableLists
    ensures multiset(r.availableLists) ==
      multiset(form.availableLists) +
      (if check.Accepted? && ToLower(input) !in form.availableLists then multiset{ToLower(input)} else multiset{})
    ensures check.Accepted? && ToLower(input) !in form.availableLists ==> Sorted(r.availableLists)
    ensures StrictlySorted(form.availableLists) ==> StrictlySorted(r.availableLists)
  {
    var list := ToLower(input);
    check := CheckValidListName(list);
    r := form;
    if check.Accepted? {
      var available := form.availableLists;
      if list !in available {
        if StrictlySorted(available) {
          AddListKeepsNamesSorted(available, list);
        }
        available := SortStrings(available + [list]);
      }
      r := FormState(available, list);
    }
  }

  /** The names the "Add" button accepts, stated on the raw input: a
      non-empty text in which each character is a lower-case ASCII letter, a
      digit or an ASCII capital, the capitals being lower-cased first. */
  lemma AcceptedNames(input: string)
    ensures ValidListName(ToLower(input)) <==>
      |input| > 0 && forall i :: 0 <= i < |input| ==> IsListNameChar(input[i]) || 'A' <= input[i] <= 'Z'
  {
  }

  /** Adding a name keeps the names on offer sorted and free of duplicates. */
  lemma AddListKeepsNamesSorted(available: seq<string>, name: string)
    requires StrictlySorted(available) && name !in available
    ensures StrictlySorted(SortStrings(available + [name]))
    ensures SortStrings(available + [name]) == Insert(available, name)
  {
    var s := available + [name];
    assert s[..|s| - 1] == available;
    SortSortedIsIdentity(available);
  }

  /** The option `onChangeSelectedListClick` preselects: the first name equal
      to the current label, or -1 when the label is empty or not on offer. */
  method PreselectedIndex(options: seq<string>, selectedList: string) returns (pos: int)
    ensures pos == -1 <==> |selectedList| == 0 || selectedList !in options
    ensures pos != -1 ==> 0 <= pos < |options| && options[pos] == selectedList
    ensures pos != -1 ==> forall j :: 0 <= j < pos ==> options[j] != selectedList
  {
    pos := -1;
    if |selectedList| > 0 {
      var i := 0;
      while i < |options|
        invariant 0 <= i <= |options|
        invariant forall j :: 0 <= j < i ==> options[j] != selectedList
      {
        if options[i] == selectedList {
          pos := i;
          break;
        }
        i := i + 1;
      }
    }
  }

  /** The user picks option `selection`: the label is rewritten (`changed`)
      exactly when the pick is not the preselected option, and afterwards it
      always shows the picked name. */
  method OnChooseList(options: seq<string>, selectedList: string, selection: nat)
    returns (shown: string, changed: bool)
    requires selection < |options|
    ensures shown == options[selection]
    ensures !changed <==>
      |selectedList| > 0 && options[selection] == selectedList &&
      forall j :: 0 <= j < selection ==> options[j] != selectedList
    ensures !changed ==> shown == selectedList
  {
    var selected := PreselectedIndex(options, selectedList);
    shown := selectedList;
    changed := false;
    if selection != selected {
      shown := options[selection];
      changed := true;
    }
  }
}

=== FILE: paging.dfy ===
/**
 * The download half of `SyncIntentService.syncBookmarks`: every remote
 * bookmark is fetched page by page, starting at page 1. The service never
 * answers with an empty page once the pages run out; it repeats the last one.
 * So the loop stops on an empty page or on a page whose last id is the last
 * id of the page appended before it, and that page is not appended.
 *
 * The remote service is a function from page number to response. Whether a
 * service ever stops is up to the service, so the loop gets `fuel`: the
 * number of requests it may still make.
 */
module Paging {

  datatype Option<T> = None | Some(value: T)

  /** A bookmark as the remote service returns it. */
  datatype Record = Record(id: string, url: string, title: string, note: string, date: string)

  /** One response: a page of records, an unsuccessful HTTP status, or an I/O failure. */
  datatype PageResponse =
    | Page(records: seq<Record>)
    | HttpError(message: string)
    | IoError

  /** The three failures of a synchronization, each with its own message. */
  datatype SyncError = ApiKeyError | ServiceError | NetworkError

  datatype Download =
    | Fetched(records: seq<Record>, stopPage: nat)
    | Failed(error: SyncError, failedPage: nat)
    | OutOfFuel

  const FIRST_PAGE: nat := 1
  /** The page size the client asks for. */
  const PAGE_LIMIT: nat := 50

  function LastId(records: seq<Record>): string
    requires |records| > 0
  {
    records[|records| - 1].id
  }

  /** The last id the loop remembers before requesting page `p`, having started at `start`. */
  ghost function PreviousLastId(source: nat -> PageResponse, start: nat, lastId: Option<string>, p: nat): Option<string>
  {
    if p <= start then lastId
    else match source(p - 1)
      case Page(rs) => if |rs| > 0 then Some(LastId(rs)) else None
      case _ => None
  }

  /** Page `p` is appended: it is a non-empty page whose last id differs from
      the one remembered. */
  ghost predicate Appends(source: nat -> PageResponse, start: nat, lastId: Option<string>, p: nat)
  {
    source(p).Page? && |source(p).records| > 0 &&
    PreviousLastId(source, start, lastId, p) != Some(LastId(source(p).records))
  }

  /** Pages `start` up to but excluding `stop` are all appended. */
  ghost predicate AppendsUpTo(source: nat -> PageResponse, start: nat, lastId: Option<string>, stop: nat)
  {
    forall p :: start <= p < stop ==> Appends(source, start, lastId, p)
  }

  /** The loop that starts at `start` stops at page `stop`: every page before
      it is appended, and `stop` is a page that is empty or repeats the last id. */
  ghost predicate StopsAt(source: nat -> PageResponse, start: nat, lastId: Option<string>, stop: nat)
  {
    start <= stop && AppendsUpTo(source, start, lastId, stop) &&
    source(stop).Page? && !Appends(source, start, lastId, stop)
  }

  /** The records of pages `from` up to but excluding `to`, in page order. */
  ghost function Collected(source: nat -> PageResponse, from: nat, to: nat): seq<Record>
    decreases to - from
  {
    if from >= to then []
    else (if source(from).Page? then source(from).records else []) + Collected(source, from + 1, to)
  }

  /** `PreviousLastId` depends on `start` only for the first page. */
  lemma PreviousLastIdShift(source: nat -> PageResponse, start: nat, lastId: Option<string>, p: nat)
    requires start < p && Appends(source, start, lastId, start)
    ensures PreviousLastId(source, start, lastId, p) ==
      PreviousLastId(source, start + 1, Some(LastId(source(start).records)), p)
  {
  }

  /** The `do … while (!exit)` loop from page `page` on, `lastId` being the last
      id of the page appended before. */
  function FetchFrom(source: nat -> PageResponse, page: nat, lastId: Option<string>, fuel: nat): (r: Download)
    ensures r.Fetched? ==> StopsAt(source, page, lastId, r.stopPage)
    ensures r.Fetched? ==> r.records == Collected(source, page, r.stopPage)
    ensures r.Failed? ==> page <= r.failedPage && AppendsUpTo(source, page, lastId, r.failedPage)
    ensures r.Failed? ==> !source(r.failedPage).Page?
    ensures r.Failed? ==> (r.error == ServiceError <==> source(r.failedPage).HttpError?)
    ensures r.Failed? ==> r.error != ApiKeyError
    ensures r.OutOfFuel? ==> AppendsUpTo(source, page, lastId, page + fuel)
    decreases fuel
  {
    if fuel == 0 then OutOfFuel
    else
      match source(page)
      case HttpError(_) => Failed(ServiceError, page)
      case IoError => Failed(NetworkError, page)
      case Page(rs) =>
        if |rs| == 0 || lastId == Some(LastId(rs)) then Fetched([], page)
        else
          var next := Some(LastId(rs));
          var rest := FetchFrom(source, page + 1, next, fuel - 1);
          assert Appends(source, page, lastId, page);
          forall p | page < p
            ensures Appends(source, page, lastId, p) == Appends(source, page + 1, next, p)
          {
            PreviousLastIdShift(source, page, lastId, p);
          }
          match rest
          case Fetched(more, stop) => Fetched(rs + more, stop)
          case _ => rest
  }

  /** The whole download, from the first page with nothing remembered. */
  function FetchAll(source: nat -> PageResponse, fuel: nat): (r: Download)
    ensures r.Fetched? ==> StopsAt(source, FIRST_PAGE, None, r.stopPage)
    ensures r.Fetched? ==> r.records == Collected(source, FIRST_PAGE, r.stopPage)
    ensures r.Failed? ==> FIRST_PAGE <= r.failedPage && AppendsUpTo(source, FIRST_PAGE, None, r.failedPage)
    ensures r.Failed? ==> r.error != ApiKeyError && !source(r.failedPage).Page?
    ensures r.Failed? ==> (r.error == ServiceError <==> source(r.failedPage).HttpError?)
  {
    FetchFrom(source, FIRST_PAGE, None, fuel)
  }

  /** Where the loop stops is determined by the service: at most one page qualifies. */
  lemma StopIsUnique(source: nat -> PageResponse, start: nat, lastId: Option<string>, s1: nat, s2: nat)
    requires StopsAt(source, start, lastId, s1) && StopsAt(source, start, lastId, s2)
    ensures s1 == s2
  {
  }

  /** Conversely, a service that stops at page `stop` with every page before it
      answering, within the fuel, is downloaded completely: the loop returns
      exactly the records of the appended pages. */
  lemma {:induction false} FetchComplete(source: nat -> PageResponse, page: nat, lastId: Option<string>, stop: nat, fuel: nat)
    requires StopsAt(source, page, lastId, stop) && stop - page < fuel
    ensures FetchFrom(source, page, lastId, fuel) == Fetched(Collected(source, page, stop), stop)
    decreases fuel
  {
    if page < stop {
      assert Appends(source, page, lastId, page);
      var rs := source(page).records;
      var next := Some(LastId(rs));
      forall p | page < p
        ensures Appends(source, page, lastId, p) == Appends(source, page + 1, next, p)
      {
        PreviousLastIdShift(source, page, lastId, p);
      }
      var following := page + 1;
      forall p | following <= p < stop
        ensures Appends(source, following, next, p)
      {
        assert Appends(source, page, lastId, p);
      }
      FetchComplete(source, page + 1, next, stop, fuel - 1);
    }
  }

  /** A service that fails at page `failed`, every page before it being
      appended, within the fuel, makes the loop fail there with the matching error. */
  lemma {:induction false} FetchFailsAt(source: nat -> PageResponse, page: nat, lastId: Option<string>, failed: nat, fuel: nat)
    requires page <= failed && AppendsUpTo(source, page, lastId, failed) && !source(failed).Page?
    requires failed - page < fuel
    ensures FetchFrom(source, page, lastId, fuel) ==
      Failed(if source(failed).HttpError? then ServiceError else NetworkError, failed)
    decreases fuel
  {
    if page < failed {
      assert Appends(source, page, lastId, page);
      var next := Some(LastId(source(page).records));
      forall p | page < p
        ensures Appends(source, page, lastId, p) == Appends(source, page + 1, next, p)
      {
        PreviousLastIdShift(source, page, lastId, p);
      }
      var following := page + 1;
      forall p | following <= p < failed
        ensures Appends(source, following, next, p)
      {
        assert Appends(source, page, lastId, p);
      }
      FetchFailsAt(source, page + 1, next, failed, fuel - 1);
    }
  }
}

=== FILE: reconcile.dfy ===
/**
 * The store half of `SyncIntentService.syncBookmarks`, run inside one
 * transaction once every remote record has been downloaded:
 *   1. every local bookmark whose id the service no longer reports is deleted;
 *   2. every remote record creates its bookmark, or overwrites the four remote
 *      attributes of an existing one when any of them differs;
 *   3. empty lists are deleted, and a list that asks for notifications is
 *      notified when it holds a created or updated bookmark.
 * A remote record has no list attribute, so a created bookmark belongs to no list.
 */
module Reconcile {
  import opened JavaString
  import opened Bookmarks
  import opened Paging

  /** The ids the service reported. */
  function RemoteIds(records: seq<Record>): (r: set<string>)
    ensures forall id :: id in r <==> exists i :: 0 <= i < |records| && records[i].id == id
  {
    set rec | rec in records :: rec.id
  }

  /* ---------- 1. removal ---------- */

  /** The membership `ids` without the ids in `gone`, order kept. */
  function Drop(ids: seq<string>, gone: set<string>): (r: seq<string>)
    ensures forall x :: x in r <==> x in ids && x !in gone
    ensures (forall x :: x in ids ==> x !in gone) ==> r == ids
  {
    if |ids| == 0 then []
    else
      assert ids == [ids[0]] + ids[1..];
      if ids[0] in gone then Drop(ids[1..], gone) else [ids[0]] + Drop(ids[1..], gone)
  }

  /** Dropping one more id is what `Without` does. */
  lemma {:induction false} WithoutAfterDrop(ids: seq<string>, gone: set<string>, x: string)
    ensures Without(Drop(ids, gone), x) == Drop(ids, gone + {x})
  {
    if |ids| > 0 {
      WithoutAfterDrop(ids[1..], gone, x);
      var t := Drop(ids[1..], gone);
      if ids[0] !in gone {
        var d := [ids[0]] + t;
        assert d[0] == ids[0] && d[1..] == t;
      }
    }
  }

  /** Deleting the bookmarks in `gone`, together with every link to them. */
  function DeleteAll(s: Store, gone: set<string>): (r: Store)
    ensures r.bookmarks == s.bookmarks - gone
    ensures r.lists.Keys == s.lists.Keys
    ensures forall n :: n in s.lists ==> r.lists[n] == s.lists[n].(bookmarks := Drop(s.lists[n].bookmarks, gone))
    ensures Valid(s) ==> Valid(r)
  {
    var r := Store(s.bookmarks - gone, map n | n in s.lists :: s.lists[n].(bookmarks := Drop(s.lists[n].bookmarks, gone)));
    DeleteAllKeepsValid(s, gone, r);
    r
  }

  lemma DeleteAllKeepsValid(s: Store, gone: set<string>, r: Store)
    requires r == Store(s.bookmarks - gone, map n | n in s.lists :: s.lists[n].(bookmarks := Drop(s.lists[n].bookmarks, gone)))
    ensures Valid(s) ==> Valid(r)
  {
    if Valid(s) {
      forall n, i | n in r.lists && 0 <= i < |r.lists[n].bookmarks|
        ensures r.lists[n].bookmarks[i] in r.bookmarks
        ensures r.bookmarks[r.lists[n].bookmarks[i]].listName == n
      {
        var x := r.lists[n].bookmarks[i];
        assert x in r.lists[n].bookmarks;
        assert x in s.lists[n].bookmarks && x !in gone;
      }
    }
  }

  /** The ORM deletes one bookmark at a time, in the order given. */
  function DeleteEach(s: Store, ids: seq<string>): Store
    decreases |ids|
  {
    if |ids| == 0 then s else DeleteEach(DeleteBookmark(s, ids[0]), ids[1..])
  }

  lemma DeleteNothing(s: Store)
    ensures DeleteAll(s, {}) == s
  {
    var r := DeleteAll(s, {});
    assert r.bookmarks == s.bookmarks;
    forall n | n in s.lists
      ensures r.lists[n] == s.lists[n]
    {
      assert Drop(s.lists[n].bookmarks, {}) == s.lists[n].bookmarks;
    }
  }

  lemma DeleteOneMore(s: Store, gone: set<string>, x: string)
    ensures DeleteBookmark(DeleteAll(s, gone), x) == DeleteAll(s, gone + {x})
  {
    var a := DeleteBookmark(DeleteAll(s, gone), x);
    var b := DeleteAll(s, gone + {x});
    forall n | n in s.lists
      ensures a.lists[n] == b.lists[n]
    {
      WithoutAfterDrop(s.lists[n].bookmarks, gone, x);
    }
  }

  lemma {:induction false} DeleteEachFrom(s: Store, gone: set<string>, ids: seq<string>)
    ensures DeleteEach(DeleteAll(s, gone), ids) == DeleteAll(s, gone + Elements(ids))
    decreases |ids|
  {
    if |ids| == 0 {
      assert gone + Elements(ids) == gone;
    } else {
      var x := ids[0];
      var g1 := gone + {x};
      var a := DeleteAll(s, gone);
      DeleteOneMore(s, gone, x);
      DeleteEachFrom(s, g1, ids[1..]);
      ElementsCons(ids);
      assert g1 + Elements(ids[1..]) == gone + Elements(ids);
      calc {
        DeleteEach(a, ids);
        DeleteEach(DeleteBookmark(a, x), ids[1..]);
        DeleteEach(DeleteAll(s, g1), ids[1..]);
        DeleteAll(s, g1 + Elements(ids[1..]));
      }
    }
  }

  /** Deleting bookmarks one at a time, in whatever order, is deleting them all
      at once: the order of the store's query does not matter. */
  lemma DeletingOneByOne(s: Store, ids: seq<string>)
    ensures DeleteEach(s, ids) == DeleteAll(s, Elements(ids))
  {
    DeleteNothing(s);
    DeleteEachFrom(s, {}, ids);
    assert {} + Elements(ids) == Elements(ids);
  }

  /** Step 1: the local bookmarks the service no longer reports are deleted. */
  function RemoveMissing(s: Store, remote: set<string>): (r: Store)
    ensures r.bookmarks.Keys == s.bookmarks.Keys * remote
    ensures forall id :: id in r.bookmarks ==> r.bookmarks[id] == s.bookmarks[id]
    ensures r.lists.Keys == s.lists.Keys
    ensures forall n :: n in s.lists ==> r.lists[n] == s.lists[n].(bookmarks := r.lists[n].bookmarks)
    ensures Valid(s) ==> Valid(r)
    ensures Valid(s) ==> forall n, x :: n in s.lists ==>
      (x in r.lists[n].bookmarks <==> x in s.lists[n].bookmarks && x in remote)
  {
    DeleteAll(s, s.bookmarks.Keys - remote)
  }

  /* ---------- 2. creation and update ---------- */

  /** The four attributes the service reports agree with the bookmark's. */
  predicate SameContent(b: Bookmark, rec: Record)
  {
    b.title == rec.title && b.date == rec.date && b.url == rec.url && b.notes == rec.note
  }

  /** The bookmark with the four remote attributes taken from `rec`. */
  function WithContent(b: Bookmark, rec: Record): (r: Bookmark)
    ensures SameContent(r, rec)
    ensures OnlyContentDiffers(b, r)
  {
    b.(title := rec.title, date := rec.date, url := rec.url, notes := rec.note)
  }

  /** `b'` differs from `b` at most in title, date, url and notes. */
  predicate OnlyContentDiffers(b: Bookmark, b': Bookmark)
  {
    b'.(title := b.title, date := b.date, url := b.url, notes := b.notes) == b
  }

  datatype Change = Created | Updated | Unchanged

  /** One iteration over the remote records. */
  function ApplyRecord(bms: map<string, Bookmark>, rec: Record): (r: (map<string, Bookmark>, Change))
    ensures rec.id in r.0 && r.0 == bms[rec.id := r.0[rec.id]]
    ensures r.0.Keys == bms.Keys + {rec.id}
    ensures SameContent(r.0[rec.id], rec)
    ensures rec.id !in bms <==> r.1 == Created
    ensures r.1 == Created ==> r.0[rec.id] == WithContent(NewBookmark(rec.id), rec)
    ensures rec.id in bms ==> OnlyContentDiffers(bms[rec.id], r.0[rec.id])
    ensures rec.id in bms ==> (r.1 == Unchanged <==> SameContent(bms[rec.id], rec))
  {
    if rec.id !in bms then (bms[rec.id := WithContent(NewBookmark(rec.id), rec)], Created)
    else if SameContent(bms[rec.id], rec) then (bms, Unchanged)
    else (bms[rec.id := WithContent(bms[rec.id], rec)], Updated)
  }

  datatype Applied = Applied(bookmarks: map<string, Bookmark>, created: seq<string>, updated: seq<string>)

  /** No later record has the same id as record `i`. */
  ghost predicate LastOccurrence(records: seq<Record>, i: int)
    requires 0 <= i < |records|
  {
    forall j :: i < j < |records| ==> records[j].id != records[i].id
  }

  /** A bookmark as sync creates it: the record's id and four attributes, no list,
      not a favorite, never opened. */
  ghost predicate FreshFromSync(id: string, b: Bookmark)
  {
    b.id == id && b.listName == "" && !b.isFavorite && b.clickCounter == 0
  }

  /** Step 2, over the records in download order. */
  function ApplyAll(bms: map<string, Bookmark>, records: seq<Record>): (r: Applied)
    ensures r.bookmarks.Keys == bms.Keys + RemoteIds(records)
    ensures forall id :: id in bms && id !in RemoteIds(records) ==> r.bookmarks[id] == bms[id]
    ensures forall id :: id in bms ==> OnlyContentDiffers(bms[id], r.bookmarks[id])
    ensures forall id :: id in r.bookmarks && id !in bms ==> FreshFromSync(id, r.bookmarks[id])
    ensures forall x :: x in r.created <==> x in RemoteIds(records) && x !in bms
    ensures forall x :: x in r.updated ==> x in RemoteIds(records)
    decreases |records|
  {
    if |records| == 0 then Applied(bms, [], [])
    else
      var rec := records[0];
      var (bms1, change) := ApplyRecord(bms, rec);
      var rest := ApplyAll(bms1, records[1..]);
      RemoteIdsCons(records);
      StepFrame(bms, rec, bms1, change, rest.bookmarks);
      var created := if change == Created then [rec.id] + rest.created else rest.created;
      CreatedStep(bms.Keys, rec.id, change == Created, bms1.Keys, RemoteIds(records[1..]), rest.created, created);
      KeysStep(bms.Keys, rec.id, bms1.Keys, RemoteIds(records[1..]), rest.bookmarks.Keys, RemoteIds(records));
      Applied(rest.bookmarks, created, if change == Updated then [rec.id] + rest.updated else rest.updated)
  }

  lemma KeysStep(stored: set<string>, x: string, stored1: set<string>, later: set<string>,
                 after: set<string>, all: set<string>)
    requires stored1 == stored + {x} && after == stored1 + later && all == {x} + later
    ensures after == stored + all
  {
  }

  /** Set algebra of one step: `x` is created when it was not stored, and the
      rest of the records create what is neither stored nor `x`. */
  lemma CreatedStep(stored: set<string>, x: string, isCreated: bool, stored1: set<string>, later: set<string>,
                    restCreated: seq<string>, created: seq<string>)
    requires stored1 == stored + {x} && (isCreated <==> x !in stored)
    requires forall y :: y in restCreated <==> y in later && y !in stored1
    requires created == if isCreated then [x] + restCreated else restCreated
    ensures forall y :: y in created <==> y in {x} + later && y !in stored
  {
  }

  lemma RemoteIdsCons(records: seq<Record>)
    requires |records| > 0
    ensures RemoteIds(records) == {records[0].id} + RemoteIds(records[1..])
  {
    assert records == [records[0]] + records[1..];
  }

  /** What one record does to the bookmarks it does not name, and to the one it names. */
  lemma StepFrame(bms: map<string, Bookmark>, rec: Record, bms1: map<string, Bookmark>, change: Change,
                  after: map<string, Bookmark>)
    requires (bms1, change) == ApplyRecord(bms, rec)
    requires bms1.Keys <= after.Keys
    requires forall id :: id in bms1 ==> OnlyContentDiffers(bms1[id], after[id])
    requires forall id :: id in after && id !in bms1 ==> FreshFromSync(id, after[id])
    ensures forall id :: id in bms ==> OnlyContentDiffers(bms[id], after[id])
    ensures forall id :: id in after && id !in bms ==> FreshFromSync(id, after[id])
  {
    forall id | id in bms
      ensures OnlyContentDiffers(bms[id], after[id])
    {
      if id == rec.id {
        assert OnlyContentDiffers(bms[id], bms1[id]);
      }
    }
  }

  /** Each bookmark is created at most once, however often its id is reported. */
  lemma {:induction false} CreatedOnce(bms: map<string, Bookmark>, records: seq<Record>)
    ensures NoDuplicates(ApplyAll(bms, records).created)
    decreases |records|
  {
    if |records| > 0 {
      var (bms1, change) := ApplyRecord(bms, records[0]);
      CreatedOnce(bms1, records[1..]);
      if change == Created {
        ConsNoDuplicates(records[0].id, ApplyAll(bms1, records[1..]).created);
      }
    }
  }

  /** The last record reported for an id decides the bookmark's four remote attributes. */
  lemma {:induction false} LastRecordWins(bms: map<string, Bookmark>, records: seq<Record>)
    ensures var r := ApplyAll(bms, records).bookmarks;
      forall i :: 0 <= i < |records| && LastOccurrence(records, i) ==>
        records[i].id in r && SameContent(r[records[i].id], records[i])
    decreases |records|
  {
    if |records| > 0 {
      var (bms1, change) := ApplyRecord(bms, records[0]);
      var tail := records[1..];
      LastRecordWins(bms1, tail);
      var r := ApplyAll(bms1, tail).bookmarks;
      forall i | 0 <= i < |records| && LastOccurrence(records, i)
        ensures records[i].id in r && SameContent(r[records[i].id], records[i])
      {
        if i == 0 {
          LastFirstIsNotRepeated(records);
        } else {
          LastOccurrenceInTail(records, i);
        }
      }
    }
  }

  lemma LastFirstIsNotRepeated(records: seq<Record>)
    requires |records| > 0 && LastOccurrence(records, 0)
    ensures records[0].id !in RemoteIds(records[1..])
  {
    var tail := records[1..];
    forall j | 0 <= j < |tail|
      ensures tail[j].id != records[0].id
    {
      assert tail[j] == records[j + 1];
    }
  }

  lemma LastOccurrenceInTail(records: seq<Record>, i: int)
    requires 0 < i < |records| && LastOccurrence(records, i)
    ensures records[i] == records[1..][i - 1] && LastOccurrence(records[1..], i - 1)
  {
    var tail := records[1..];
    forall j | i - 1 < j < |tail|
      ensures tail[j].id != tail[i - 1].id
    {
      assert tail[j] == records[j + 1];
    }
  }

  /** Some record reported for `id` disagrees with `b` in a remote attribute. */
  ghost predicate ChangedBy(records: seq<Record>, id: string, b: Bookmark)
  {
    exists i :: 0 <= i < |records| && records[i].id == id && !SameContent(b, records[i])
  }

  lemma ChangedByCons(records: seq<Record>, id: string, b: Bookmark)
    requires |records| > 0
    ensures ChangedBy(records, id, b) <==>
      (records[0].id == id && !SameContent(b, records[0])) || ChangedBy(records[1..], id, b)
  {
    var tail := records[1..];
    if ChangedBy(tail, id, b) {
      var j :| 0 <= j < |tail| && tail[j].id == id && !SameContent(b, tail[j]);
      assert records[j + 1] == tail[j];
    }
    if ChangedBy(records, id, b) {
      var i :| 0 <= i < |records| && records[i].id == id && !SameContent(b, records[i]);
      if i > 0 {
        assert tail[i - 1] == records[i];
      }
    }
  }

  /** A bookmark that was stored is counted as updated exactly when some record
      reported for it disagrees with what was stored: the first such record
      overwrites it, and a record that agrees changes nothing. */
  lemma {:induction false} UpdatedIffChanged(bms: map<string, Bookmark>, records: seq<Record>, x: string)
    requires x in bms
    ensures x in ApplyAll(bms, records).updated <==> ChangedBy(records, x, bms[x])
    decreases |records|
  {
    if |records| > 0 {
      var rec := records[0];
      var (bms1, change) := ApplyRecord(bms, rec);
      ChangedByCons(records, x, bms[x]);
      UpdatedIffChanged(bms1, records[1..], x);
      if rec.id != x {
        assert bms1[x] == bms[x];
      }
    }
  }

  /** Records that all agree with the stored bookmarks change nothing. */
  lemma {:induction false} ApplyAllUnchanged(bms: map<string, Bookmark>, records: seq<Record>)
    requires forall i :: 0 <= i < |records| ==> records[i].id in bms && SameContent(bms[records[i].id], records[i])
    ensures ApplyAll(bms, records) == Applied(bms, [], [])
    decreases |records|
  {
    if |records| > 0 {
      var tail := records[1..];
      assert ApplyRecord(bms, records[0]) == (bms, Unchanged);
      forall i | 0 <= i < |tail|
        ensures tail[i].id in bms && SameContent(bms[tail[i].id], tail[i])
      {
        assert tail[i] == records[i + 1];
      }
      ApplyAllUnchanged(bms, tail);
    }
  }

  /* ---------- 3. lists ---------- */

  /** `list.getBookmarks().contains(b)` for some `b` in `changed`. */
  function ContainsAny(members: seq<string>, changed: seq<string>): (r: bool)
    ensures r <==> exists x :: x in changed && x in members
  {
    if |changed| == 0 then false
    else if changed[0] in members then true
    else
      assert forall x :: x in changed ==> x == changed[0] || x in changed[1..];
      ContainsAny(members, changed[1..])
  }

  /** The names of the lists to notify: non-empty lists with the flag set that
      hold a created or updated bookmark. */
  function ListsToNotify(lists: map<string, BookmarkList>, created: seq<string>, updated: seq<string>): (r: set<string>)
    ensures forall n :: n in r <==>
      n in lists && |lists[n].bookmarks| > 0 && lists[n].notifyFlag &&
      exists x :: (x in created || x in updated) && x in lists[n].bookmarks
  {
    set n | n in lists && |lists[n].bookmarks| > 0 && lists[n].notifyFlag &&
      (ContainsAny(lists[n].bookmarks, created) || ContainsAny(lists[n].bookmarks, updated))
  }

  /** The lists that survive the purge. */
  function PurgeEmptyLists(lists: map<string, BookmarkList>): (r: map<string, BookmarkList>)
    ensures r.Keys == set n | n in lists && |lists[n].bookmarks| > 0
    ensures forall n :: n in r ==> r[n] == lists[n]
  {
    map n | n in lists && |lists[n].bookmarks| > 0 :: lists[n]
  }

  /* ---------- the whole transaction ---------- */

  /** The `(removed, created, updated)` counts of the summary message. */
  datatype Summary = Summary(removed: nat, created: nat, updated: nat)

  datatype Reconciled = Reconciled(store: Store, summary: Summary, notify: set<string>)

  function ReconcileStore(s: Store, records: seq<Record>): (r: Reconciled)
    ensures r.store.bookmarks.Keys == RemoteIds(records)
    ensures NoEmptyLists(r.store)
    ensures r.store.lists.Keys <= s.lists.Keys
    ensures r.summary.removed == |s.bookmarks.Keys - RemoteIds(records)|
    ensures r.summary.created == |RemoteIds(records) - s.bookmarks.Keys|
    ensures forall n :: n in r.notify ==> n in r.store.lists && r.store.lists[n].notifyFlag
    ensures forall n :: n in r.store.lists <==>
      n in s.lists && |Drop(s.lists[n].bookmarks, s.bookmarks.Keys - RemoteIds(records))| > 0
    ensures forall n :: n in r.store.lists ==>
      r.store.lists[n] == s.lists[n].(bookmarks := Drop(s.lists[n].bookmarks, s.bookmarks.Keys - RemoteIds(records)))
    ensures Valid(s) ==> Valid(r.store)
  {
    var remote := RemoteIds(records);
    var removed := RemoveMissing(s, remote);
    var applied := ApplyAll(removed.bookmarks, records);
    var r := Assemble(removed, applied, |s.bookmarks.Keys - remote|);
    CreatedCount(s.bookmarks.Keys, records, removed.bookmarks, applied.created);
    ContentFacts(s.bookmarks, records, removed.bookmarks, applied.bookmarks);
    ReconcileKeepsValid(s, remote, removed, applied, r.store);
    r
  }

  /** Step 3 and the summary, from the store after removal and the outcome of step 2. */
  function Assemble(removed: Store, applied: Applied, removedCount: nat): Reconciled
  {
    Reconciled(Store(applied.bookmarks, PurgeEmptyLists(removed.lists)),
               Summary(removedCount, |applied.created|, |applied.updated|),
               ListsToNotify(removed.lists, applied.created, applied.updated))
  }

  /** The transaction in terms of its three steps. */
  lemma ReconcileStoreSteps(s: Store, records: seq<Record>)
    ensures var removed := RemoveMissing(s, RemoteIds(records));
      ReconcileStore(s, records) ==
        Assemble(removed, ApplyAll(removed.bookmarks, records), |s.bookmarks.Keys - RemoteIds(records)|)
  {
  }

  /** What a sync does to the bookmarks' contents, `stored` being the bookmarks
      before and `after` those after: the last record reported for an id decides
      its four remote attributes, a bookmark that was stored keeps everything
      else, and a created one is fresh. */
  ghost predicate SyncedFrom(stored: map<string, Bookmark>, records: seq<Record>, after: map<string, Bookmark>)
  {
    && (forall i :: 0 <= i < |records| && LastOccurrence(records, i) ==>
          records[i].id in after && SameContent(after[records[i].id], records[i]))
    && (forall id :: id in after && id in stored ==> OnlyContentDiffers(stored[id], after[id]))
    && (forall id :: id in after && id !in stored ==> FreshFromSync(id, after[id]))
  }

  lemma SyncedContent(s: Store, records: seq<Record>)
    ensures SyncedFrom(s.bookmarks, records, ReconcileStore(s, records).store.bookmarks)
  {
    var removed := RemoveMissing(s, RemoteIds(records));
    var applied := ApplyAll(removed.bookmarks, records);
    ReconcileStoreSteps(s, records);
    ContentFacts(s.bookmarks, records, removed.bookmarks, applied.bookmarks);
    LastRecordWins(removed.bookmarks, records);
    assert SyncedFrom(s.bookmarks, records, applied.bookmarks);
  }

  /** The created count is the number of remote ids that were not stored. */
  lemma CreatedCount(stored: set<string>, records: seq<Record>, kept: map<string, Bookmark>, created: seq<string>)
    requires kept.Keys == stored * RemoteIds(records)
    requires created == ApplyAll(kept, records).created
    ensures |created| == |RemoteIds(records) - stored|
  {
    var newIds := RemoteIds(records) - stored;
    forall x
      ensures x in Elements(created) <==> x in newIds
    {
      assert x in created <==> x in RemoteIds(records) && x !in kept;
    }
    assert Elements(created) == newIds;
    CreatedOnce(kept, records);
    DistinctCount(created);
  }

  /** What the transaction does to each surviving bookmark: `stored` are the
      bookmarks before, `kept` those that survive the removal. */
  lemma ContentFacts(stored: map<string, Bookmark>, records: seq<Record>, kept: map<string, Bookmark>,
                     after: map<string, Bookmark>)
    requires kept.Keys == stored.Keys * RemoteIds(records)
    requires forall id :: id in kept ==> kept[id] == stored[id]
    requires after == ApplyAll(kept, records).bookmarks
    ensures after.Keys == RemoteIds(records)
    ensures forall id :: id in after && id in stored ==> OnlyContentDiffers(stored[id], after[id])
    ensures forall id :: id in after && id !in stored ==> FreshFromSync(id, after[id])
  {
    assert kept.Keys <= RemoteIds(records);
    forall id | id in after && id in stored
      ensures OnlyContentDiffers(stored[id], after[id])
    {
      KeptContent(stored, records, kept, after, id);
    }
    forall id | id in after && id !in stored
      ensures FreshFromSync(id, after[id])
    {
      CreatedContent(stored, records, kept, after, id);
    }
  }

  lemma KeptContent(stored: map<string, Bookmark>, records: seq<Record>, kept: map<string, Bookmark>,
                    after: map<string, Bookmark>, id: string)
    requires kept.Keys == stored.Keys * RemoteIds(records)
    requires forall id :: id in kept ==> kept[id] == stored[id]
    requires after == ApplyAll(kept, records).bookmarks
    requires id in after && id in stored
    ensures OnlyContentDiffers(stored[id], after[id])
  {
    assert id in kept;
  }

  lemma CreatedContent(stored: map<string, Bookmark>, records: seq<Record>, kept: map<string, Bookmark>,
                       after: map<string, Bookmark>, id: string)
    requires kept.Keys == stored.Keys * RemoteIds(records)
    requires after == ApplyAll(kept, records).bookmarks
    requires id in after && id !in stored
    ensures FreshFromSync(id, after[id])
  {
    assert id !in kept;
  }

  lemma ReconcileKeepsValid(s: Store, remote: set<string>, removed: Store, applied: Applied, store: Store)
    requires removed == RemoveMissing(s, remote)
    requires applied.bookmarks.Keys == removed.bookmarks.Keys + remote
    requires forall id :: id in removed.bookmarks ==> OnlyContentDiffers(removed.bookmarks[id], applied.bookmarks[id])
    requires forall id :: id in applied.bookmarks && id !in removed.bookmarks ==> FreshFromSync(id, applied.bookmarks[id])
    requires store == Store(applied.bookmarks, PurgeEmptyLists(removed.lists))
    ensures Valid(s) ==> Valid(store)
  {
    if Valid(s) {
      forall n, i | n in store.lists && 0 <= i < |store.lists[n].bookmarks|
        ensures store.lists[n].bookmarks[i] in store.bookmarks
        ensures store.bookmarks[store.lists[n].bookmarks[i]].listName == n
      {
        var x := removed.lists[n].bookmarks[i];
        assert x in removed.bookmarks && removed.bookmarks[x].listName == n;
      }
      forall id | id in store.bookmarks && store.bookmarks[id].listName != ""
        ensures store.bookmarks[id].listName in store.lists
        ensures id in store.lists[store.bookmarks[id].listName].bookmarks
      {
        var n := store.bookmarks[id].listName;
        assert id in removed.bookmarks;
        assert id in removed.lists[n].bookmarks;
      }
    }
  }

  /** Under a valid store, a list is notified exactly when it asks for
      notifications and one of its bookmarks was changed by the service. A
      created bookmark belongs to no list, so it never causes a notification. */
  lemma NotifyIffChanged(s: Store, records: seq<Record>)
    requires Valid(s)
    ensures var r := ReconcileStore(s, records);
      forall n :: n in r.notify <==>
        n in s.lists && s.lists[n].notifyFlag &&
        exists x :: x in s.lists[n].bookmarks && ChangedBy(records, x, s.bookmarks[x])
  {
    var removed := RemoveMissing(s, RemoteIds(records));
    var applied := ApplyAll(removed.bookmarks, records);
    NotifyIffChangedIn(s, records, removed, applied);
  }

  lemma NotifyIffChangedIn(s: Store, records: seq<Record>, removed: Store, applied: Applied)
    requires Valid(s) && removed == RemoveMissing(s, RemoteIds(records))
    requires applied == ApplyAll(removed.bookmarks, records)
    ensures var notify := ListsToNotify(removed.lists, applied.created, applied.updated);
      forall n :: n in notify <==>
        n in s.lists && s.lists[n].notifyFlag &&
        exists x :: x in s.lists[n].bookmarks && ChangedBy(records, x, s.bookmarks[x])
  {
    var notify := ListsToNotify(removed.lists, applied.created, applied.updated);
    forall n
      ensures n in notify <==>
        n in s.lists && s.lists[n].notifyFlag &&
        exists x :: x in s.lists[n].bookmarks && ChangedBy(records, x, s.bookmarks[x])
    {
      if n in notify {
        NotifiedWasChanged(s, records, removed, applied, n);
      }
      if n in s.lists && s.lists[n].notifyFlag &&
         exists x :: x in s.lists[n].bookmarks && ChangedBy(records, x, s.bookmarks[x]) {
        var x :| x in s.lists[n].bookmarks && ChangedBy(records, x, s.bookmarks[x]);
        ChangedIsNotified(s, records, removed, applied, n, x);
      }
    }
  }

  lemma NotifiedWasChanged(s: Store, records: seq<Record>, removed: Store, applied: Applied, n: string)
    requires Valid(s) && removed == RemoveMissing(s, RemoteIds(records))
    requires applied == ApplyAll(removed.bookmarks, records)
    requires n in ListsToNotify(removed.lists, applied.created, applied.updated)
    ensures n in s.lists && s.lists[n].notifyFlag
    ensures exists x :: x in s.lists[n].bookmarks && ChangedBy(records, x, s.bookmarks[x])
  {
    var x :| (x in applied.created || x in applied.updated) && x in removed.lists[n].bookmarks;
    assert Valid(removed);
    assert x in removed.bookmarks;
    UpdatedIffChanged(removed.bookmarks, records, x);
    assert x in s.lists[n].bookmarks && ChangedBy(records, x, s.bookmarks[x]);
  }

  lemma ChangedIsNotified(s: Store, records: seq<Record>, removed: Store, applied: Applied, n: string, x: string)
    requires Valid(s) && removed == RemoveMissing(s, RemoteIds(records))
    requires applied == ApplyAll(removed.bookmarks, records)
    requires n in s.lists && s.lists[n].notifyFlag
    requires x in s.lists[n].bookmarks && ChangedBy(records, x, s.bookmarks[x])
    ensures n in ListsToNotify(removed.lists, applied.created, applied.updated)
  {
    assert x in RemoteIds(records);
    assert x in removed.lists[n].bookmarks;
    UpdatedIffChanged(removed.bookmarks, records, x);
  }

  /** No two records carry the same id. */
  ghost predicate DistinctIds(records: seq<Record>)
  {
    forall i, j :: 0 <= i < j < |records| ==> records[i].id != records[j].id
  }

  /** Synchronizing again against the same records, each id reported once,
      changes nothing, counts nothing and notifies nobody. */
  lemma ReconcileIsIdempotent(s: Store, records: seq<Record>)
    requires DistinctIds(records)
    ensures var first := ReconcileStore(s, records);
      var second := ReconcileStore(first.store, records);
      second.store == first.store && second.summary == Summary(0, 0, 0) && second.notify == {}
  {
    var s1 := ReconcileStore(s, records).store;
    ResyncAgrees(s, records);
    AgreeingStoreIsFixed(s1, records);
  }

  /** A store that holds exactly the reported ids, each agreeing with its
      records, and no empty list, is left as it is. */
  lemma AgreeingStoreIsFixed(s: Store, records: seq<Record>)
    requires s.bookmarks.Keys == RemoteIds(records) && NoEmptyLists(s)
    requires forall i :: 0 <= i < |records| ==>
      records[i].id in s.bookmarks && SameContent(s.bookmarks[records[i].id], records[i])
    ensures ReconcileStore(s, records) == Reconciled(s, Summary(0, 0, 0), {})
  {
    var remote := RemoteIds(records);
    ReconcileStoreSteps(s, records);
    ResyncRemovesNothing(s, remote);
    ApplyAllUnchanged(s.bookmarks, records);
    assert |s.bookmarks.Keys - remote| == 0 by {
      assert s.bookmarks.Keys - remote == {};
    }
    AssembleUnchanged(s);
  }

  lemma AssembleUnchanged(s: Store)
    requires NoEmptyLists(s)
    ensures Assemble(s, Applied(s.bookmarks, [], []), 0) == Reconciled(s, Summary(0, 0, 0), {})
  {
    assert PurgeEmptyLists(s.lists) == s.lists;
    assert ListsToNotify(s.lists, [], []) == {};
  }

  lemma ResyncRemovesNothing(s: Store, remote: set<string>)
    requires s.bookmarks.Keys == remote
    ensures RemoveMissing(s, remote) == s
  {
    assert s.bookmarks.Keys - remote == {};
    DeleteNothing(s);
  }

  /** After a sync, every record with a distinct id agrees with its stored bookmark. */
  lemma ResyncAgrees(s: Store, records: seq<Record>)
    requires DistinctIds(records)
    ensures var s1 := ReconcileStore(s, records).store;
      forall i :: 0 <= i < |records| ==>
        records[i].id in s1.bookmarks && SameContent(s1.bookmarks[records[i].id], records[i])
  {
    SyncedContent(s, records);
    forall i | 0 <= i < |records|
      ensures LastOccurrence(records, i)
    {
    }
  }
}

=== FILE: serializer.dfy ===
/**
 * Export and import of bookmarks as JSON (`BookmarkSerializer`). Only the
 * four user-editable attributes travel: title, list name, url and notes.
 *
 * JSON text is abstracted to its parsed shape: an object is a map from keys
 * to string values, an array is a sequence of elements, and `Unparsable`
 * stands for any text that is not the expected JSON value.
 */
module Serializer {
  import opened Bookmarks

  datatype Json =
    | Object(fields: map<string, string>)
    | Array(elements: seq<Json>)
    | Unparsable

  /** The error each `SerializationException` carries (its message resource). */
  datatype SerializationError =
    | SerializeEmptyError
    | DeserializeJsonError
    | DeserializeEmptyError
    | DeserializeJsonArrayError

  datatype Result<T> = Ok(value: T) | Err(error: SerializationError)

  /** The four attributes a serialized bookmark carries. */
  datatype Exported = Exported(title: string, listName: string, url: string, notes: string)

  function ExportedPart(b: Bookmark): Exported
  {
    Exported(b.title, b.listName, b.url, b.notes)
  }

  /** `serialize(Bookmark)`: a JSON object with exactly the four user
      attributes; id, date, favorite flag and click counter are not written. */
  function SerializeBookmark(b: Bookmark): (j: Json)
    ensures j.Object?
    ensures j.fields.Keys == {FIELD_TITLE, FIELD_LIST, FIELD_URL, FIELD_NOTE}
    ensures j.fields[FIELD_TITLE] == b.title && j.fields[FIELD_LIST] == b.listName
    ensures j.fields[FIELD_URL] == b.url && j.fields[FIELD_NOTE] == b.notes
  {
    Object(map[FIELD_TITLE := b.title, FIELD_LIST := b.listName, FIELD_URL := b.url, FIELD_NOTE := b.notes])
  }

  /** Id, date, favorite flag and click counter do not influence the output. */
  lemma SerializeOnlyReadsExportedPart(b1: Bookmark, b2: Bookmark)
    requires ExportedPart(b1) == ExportedPart(b2)
    ensures SerializeBookmark(b1) == SerializeBookmark(b2)
  {
  }

  /** `serialize(List<Bookmark>)`: an array with one element per bookmark, in order. */
  function SerializeBookmarks(bookmarks: seq<Bookmark>): (r: Result<Json>)
    ensures |bookmarks| == 0 <==> r == Err(SerializeEmptyError)
    ensures r.Ok? ==> r.value.Array? && |r.value.elements| == |bookmarks|
    ensures r.Ok? ==> forall i :: 0 <= i < |bookmarks| ==>
      r.value.elements[i] == SerializeBookmark(bookmarks[i])
  {
    if |bookmarks| == 0 then Err(SerializeEmptyError)
    else Ok(Array(seq(|bookmarks|, i requires 0 <= i < |bookmarks| => SerializeBookmark(bookmarks[i]))))
  }

  /** `getString` of an optional key, with "" when it is missing. */
  function GetOrEmpty(fields: map<string, string>, key: string): string
  {
    if key in fields then fields[key] else ""
  }

  /** `deserializeBookmark`: a new, unsaved bookmark. The url is mandatory;
      title, list name and notes default to "". */
  function DeserializeBookmark(j: Json): (r: Result<Bookmark>)
    ensures !j.Object? ==> r == Err(DeserializeJsonError)
    ensures j.Object? && FIELD_URL !in j.fields ==> r == Err(DeserializeJsonError)
    ensures j.Object? && FIELD_URL in j.fields ==>
      r.Ok? && r.value.url == j.fields[FIELD_URL]
      && (FIELD_TITLE in j.fields ==> r.value.title == j.fields[FIELD_TITLE])
      && (FIELD_TITLE !in j.fields ==> r.value.title == "")
      && (FIELD_LIST in j.fields ==> r.value.listName == j.fields[FIELD_LIST])
      && (FIELD_LIST !in j.fields ==> r.value.listName == "")
      && (FIELD_NOTE in j.fields ==> r.value.notes == j.fields[FIELD_NOTE])
      && (FIELD_NOTE !in j.fields ==> r.value.notes == "")
      && !r.value.isFavorite && r.value.clickCounter == 0
  {
    match j
    case Object(fields) =>
      if FIELD_URL !in fields then Err(DeserializeJsonError)
      else
        var blank := NewBookmark("");
        Ok(blank.(title := GetOrEmpty(fields, FIELD_TITLE),
                  listName := GetOrEmpty(fields, FIELD_LIST),
                  url := fields[FIELD_URL],
                  notes := GetOrEmpty(fields, FIELD_NOTE)))
    case _ => Err(DeserializeJsonError)
  }

  /** The elements from index `from` on, each deserialized; the first failing element's error. */
  function DeserializeElements(elements: seq<Json>, from: nat): (r: Result<seq<Bookmark>>)
    requires from <= |elements|
    ensures r.Ok? ==> |r.value| == |elements| - from
    ensures r.Ok? ==> forall i :: from <= i < |elements| ==>
      DeserializeBookmark(elements[i]) == Ok(r.value[i - from])
    ensures r.Err? ==> r.error == DeserializeJsonError
    ensures r.Err? ==> exists i :: from <= i < |elements| && DeserializeBookmark(elements[i]).Err?
    ensures (forall i :: from <= i < |elements| ==> DeserializeBookmark(elements[i]).Ok?) ==> r.Ok?
    decreases |elements| - from
  {
    if from == |elements| then Ok([])
    else
      match DeserializeBookmark(elements[from])
      case Err(e) => Err(e)
      case Ok(b) =>
        match DeserializeElements(elements, from + 1)
        case Err(e) => Err(e)
        case Ok(rest) => Ok([b] + rest)
  }

  /** `deserializeBookmarks`: text that is not an array is an array error, an
      empty array is an empty error, otherwise one bookmark per element, in order. */
  function DeserializeBookmarks(j: Json): (r: Result<seq<Bookmark>>)
    ensures !j.Array? ==> r == Err(DeserializeJsonArrayError)
    ensures j.Array? && |j.elements| == 0 ==> r == Err(DeserializeEmptyError)
    ensures j.Array? && |j.elements| > 0 ==>
      (r.Ok? <==> forall i :: 0 <= i < |j.elements| ==> DeserializeBookmark(j.elements[i]).Ok?)
    ensures j.Array? && |j.elements| > 0 && r.Err? ==> r.error == DeserializeJsonError
    ensures r.Ok? ==> j.Array? && |r.value| == |j.elements| > 0
    ensures r.Ok? ==> forall i :: 0 <= i < |j.elements| ==>
      DeserializeBookmark(j.elements[i]) == Ok(r.value[i])
  {
    match j
    case Array(elements) =>
      if |elements| == 0 then Err(DeserializeEmptyError)
      else DeserializeElements(elements, 0)
    case _ => Err(DeserializeJsonArrayError)
  }

  /** Exporting a non-empty list and importing it back gives as many bookmarks,
      each with the same title, list name, url and notes as the original. */
  lemma RoundTrip(bookmarks: seq<Bookmark>)
    requires |bookmarks| > 0
    ensures SerializeBookmarks(bookmarks).Ok?
    ensures var r := DeserializeBookmarks(SerializeBookmarks(bookmarks).value);
      r.Ok? && |r.value| == |bookmarks| &&
      forall i :: 0 <= i < |bookmarks| ==> ExportedPart(r.value[i]) == ExportedPart(bookmarks[i])
  {
    var j := SerializeBookmarks(bookmarks).value;
    forall i | 0 <= i < |j.elements|
      ensures DeserializeBookmark(j.elements[i]).Ok?
    {
      assert j.elements[i] == SerializeBookmark(bookmarks[i]);
    }
  }
}

=== FILE: store_ops.dfy ===
/**
 * The store operations of `RealmUtils` other than the smart-favorite ones.
 * Each transaction body is one pure function from the store before to the
 * store after; a body that throws makes the whole transaction fail, the store
 * stays as it was, and the caller's callback receives the error message.
 */
module StoreOps {
  import opened Bookmarks

  /** Outcome of a transaction: the value handed to `onSuccess`, or the
      message handed to `onError`. */
  datatype Outcome<T> = Success(value: T) | Failure(message: string)

  /** `addBookmark` reports a failure with the same text as `removeBookmark`. */
  const ADD_ERROR: string := "There was an error removing"
  const REMOVE_ERROR: string := "There was an error removing"
  const FAVORITE_ERROR: string := "There was an error modifying bookmark favorite flag."
  const NOTIFY_FLAG_ERROR: string := "There was an error modifying list notify flag."

  /** The list a bookmark joins: the stored one of that name, or a new empty one. */
  function FindOrCreateList(s: Store, name: string): (l: BookmarkList)
    ensures name in s.lists ==> l == s.lists[name]
    ensures name !in s.lists ==> l == NewList(name)
  {
    if name in s.lists then s.lists[name] else NewList(name)
  }

  /** `addBookmark`: the bookmark is copied into the store (a second object with
      the same primary key is refused) and, when it names a list, appended to
      that list, which is created first if needed. */
  function AddBookmark(s: Store, b: Bookmark): (r: Outcome<Store>)
    ensures b.id in s.bookmarks <==> r == Failure(ADD_ERROR)
    ensures r.Success? ==> r.value.bookmarks == s.bookmarks[b.id := b]
    ensures r.Success? && b.listName == "" ==> r.value.lists == s.lists
    ensures r.Success? && b.listName != "" ==>
      && r.value.lists.Keys == s.lists.Keys + {b.listName}
      && r.value.lists[b.listName].bookmarks ==
           (if b.listName in s.lists then s.lists[b.listName].bookmarks else []) + [b.id]
      && (b.listName in s.lists ==> r.value.lists[b.listName].notifyFlag == s.lists[b.listName].notifyFlag)
      && (b.listName !in s.lists ==> r.value.lists[b.listName] == NewList(b.listName).(bookmarks := [b.id]))
      && (forall n :: n in s.lists && n != b.listName ==> r.value.lists[n] == s.lists[n])
    ensures r.Success? && Valid(s) ==> Valid(r.value)
    ensures r.Success? && NoEmptyLists(s) ==> NoEmptyLists(r.value)
  {
    if b.id in s.bookmarks then Failure(ADD_ERROR)
    else
      var bookmarks := s.bookmarks[b.id := b];
      if b.listName == "" then
        Success(Store(bookmarks, s.lists))
      else
        var list := FindOrCreateList(s, b.listName);
        var r := Store(bookmarks, s.lists[b.listName := list.(bookmarks := list.bookmarks + [b.id])]);
        AddKeepsValid(s, b, r);
        Success(r)
  }

  lemma AddKeepsValid(s: Store, b: Bookmark, r: Store)
    requires b.id !in s.bookmarks && b.listName != ""
    requires r == Store(s.bookmarks[b.id := b],
      s.lists[b.listName := FindOrCreateList(s, b.listName).(bookmarks := FindOrCreateList(s, b.listName).bookmarks + [b.id])])
    ensures Valid(s) ==> Valid(r)
  {
    if Valid(s) {
      var n := b.listName;
      forall m, i | m in r.lists && 0 <= i < |r.lists[m].bookmarks|
        ensures r.lists[m].bookmarks[i] in r.bookmarks
        ensures r.bookmarks[r.lists[m].bookmarks[i]].listName == m
      {
        if m == n && i == |r.lists[m].bookmarks| - 1 {
        } else {
          assert r.lists[m].bookmarks[i] in s.bookmarks;
        }
      }
      forall id | id in r.bookmarks && r.bookmarks[id].listName != ""
        ensures r.bookmarks[id].listName in r.lists
        ensures id in r.lists[r.bookmarks[id].listName].bookmarks
      {
        var m := r.bookmarks[id].listName;
        if id != b.id && m == n {
          assert id in s.lists[n].bookmarks;
        }
      }
    }
  }

  /** `removeBookmark`: the bookmark is deleted (and with it every link to it);
      if it named a list that is now empty, that list is deleted too. A missing
      id makes the transaction fail. On success the caller gets a copy of the
      bookmark as it was before deletion. */
  function RemoveBookmark(s: Store, id: string): (r: Outcome<(Store, Bookmark)>)
    ensures id !in s.bookmarks <==> r == Failure(REMOVE_ERROR)
    ensures r.Success? ==> r.value.1 == s.bookmarks[id]
    ensures r.Success? ==> r.value.0.bookmarks == s.bookmarks - {id}
    ensures r.Success? ==>
      var n := s.bookmarks[id].listName;
      var emptied := n != "" && n in s.lists && |Without(s.lists[n].bookmarks, id)| == 0;
      r.value.0.lists.Keys == s.lists.Keys - (if emptied then {n} else {})
    ensures r.Success? ==> forall m :: m in r.value.0.lists ==>
      r.value.0.lists[m] == s.lists[m].(bookmarks := Without(s.lists[m].bookmarks, id))
    ensures r.Success? && Valid(s) ==> Valid(r.value.0)
    ensures r.Success? && Valid(s) && NoEmptyLists(s) ==> NoEmptyLists(r.value.0)
    ensures r.Success? && Valid(s) ==> forall m :: m in r.value.0.lists && m != s.bookmarks[id].listName ==>
      r.value.0.lists[m] == s.lists[m]
  {
    if id !in s.bookmarks then Failure(REMOVE_ERROR)
    else
      var copy := s.bookmarks[id];
      var n := copy.listName;
      var deleted := DeleteBookmark(s, id);
      var r := if n != "" && n in deleted.lists && |deleted.lists[n].bookmarks| == 0
               then DeleteList(deleted, n) else deleted;
      RemoveKeepsValid(s, id, r);
      Success((r, copy))
  }

  lemma RemoveKeepsValid(s: Store, id: string, r: Store)
    requires id in s.bookmarks
    requires var n := s.bookmarks[id].listName; var d := DeleteBookmark(s, id);
      r == if n != "" && n in d.lists && |d.lists[n].bookmarks| == 0 then DeleteList(d, n) else d
    ensures Valid(s) ==> Valid(r)
    ensures Valid(s) && NoEmptyLists(s) ==> NoEmptyLists(r)
    ensures Valid(s) ==> forall m :: m in r.lists && m != s.bookmarks[id].listName ==> r.lists[m] == s.lists[m]
  {
    if Valid(s) {
      var n := s.bookmarks[id].listName;
      var d := DeleteBookmark(s, id);
      DeleteBookmarkKeepsValid(s, id);
      if n != "" && n in d.lists && |d.lists[n].bookmarks| == 0 {
        DeleteEmptyListKeepsValid(d, n);
      }
      forall m | m in r.lists && m != n
        ensures r.lists[m] == s.lists[m]
      {
        OtherListsDoNotMention(s, id, m);
      }
      if NoEmptyLists(s) {
        forall m | m in r.lists
          ensures |r.lists[m].bookmarks| > 0
        {
          assert m in s.lists && |s.lists[m].bookmarks| > 0;
        }
      }
    }
  }

  /** In a valid store, a bookmark is linked from no list but its own. */
  lemma OtherListsDoNotMention(s: Store, id: string, m: string)
    requires Valid(s) && id in s.bookmarks && m in s.lists && m != s.bookmarks[id].listName
    ensures id !in s.lists[m].bookmarks
  {
    forall i | 0 <= i < |s.lists[m].bookmarks|
      ensures s.lists[m].bookmarks[i] != id
    {
      assert s.bookmarks[s.lists[m].bookmarks[i]].listName == m;
    }
  }

  /** Deleting a list that has no members keeps the store valid. */
  lemma DeleteEmptyListKeepsValid(d: Store, n: string)
    requires Valid(d) && n in d.lists && |d.lists[n].bookmarks| == 0
    ensures Valid(DeleteList(d, n))
  {
    var r := DeleteList(d, n);
    forall x | x in r.bookmarks && r.bookmarks[x].listName != ""
      ensures r.bookmarks[x].listName != n
    {
      var m := r.bookmarks[x].listName;
      assert x in d.lists[m].bookmarks;
    }
  }

  /** `setFavorite`: only that bookmark's favorite flag changes. */
  function SetFavorite(s: Store, id: string, isFavorite: bool): (r: Outcome<Store>)
    ensures id !in s.bookmarks <==> r == Failure(FAVORITE_ERROR)
    ensures r.Success? ==> r.value.lists == s.lists && r.value.bookmarks.Keys == s.bookmarks.Keys
    ensures r.Success? ==> r.value.bookmarks[id].isFavorite == isFavorite
    ensures r.Success? ==> r.value.bookmarks[id] == s.bookmarks[id].(isFavorite := isFavorite)
    ensures r.Success? ==> forall x :: x in s.bookmarks && x != id ==> r.value.bookmarks[x] == s.bookmarks[x]
    ensures r.Success? && Valid(s) ==> Valid(r.value)
  {
    if id !in s.bookmarks then Failure(FAVORITE_ERROR)
    else Success(s.(bookmarks := s.bookmarks[id := s.bookmarks[id].(isFavorite := isFavorite)]))
  }

  /** `clearFavorites`: afterwards no bookmark is a favorite, and nothing else changed. */
  function ClearFavorites(s: Store): (r: Store)
    ensures r.lists == s.lists && r.bookmarks.Keys == s.bookmarks.Keys
    ensures forall id :: id in r.bookmarks ==> !r.bookmarks[id].isFavorite
    ensures forall id :: id in s.bookmarks ==>
      r.bookmarks[id].(isFavorite := s.bookmarks[id].isFavorite) == s.bookmarks[id]
    ensures Valid(s) ==> Valid(r)
  {
    s.(bookmarks := map id | id in s.bookmarks :: s.bookmarks[id].(isFavorite := false))
  }

  /** `setListNotificationFlag`: only the named list's flag changes; a missing
      list makes the transaction fail. */
  function SetListNotificationFlag(s: Store, listName: string, notifyFlag: bool): (r: Outcome<Store>)
    ensures listName !in s.lists <==> r == Failure(NOTIFY_FLAG_ERROR)
    ensures r.Success? ==> r.value.bookmarks == s.bookmarks && r.value.lists.Keys == s.lists.Keys
    ensures r.Success? ==> r.value.lists[listName] == s.lists[listName].(notifyFlag := notifyFlag)
    ensures r.Success? ==> forall n :: n in s.lists && n != listName ==> r.value.lists[n] == s.lists[n]
    ensures r.Success? && Valid(s) ==> Valid(r.value)
  {
    if listName !in s.lists then Failure(NOTIFY_FLAG_ERROR)
    else Success(s.(lists := s.lists[listName := s.lists[listName].(notifyFlag := notifyFlag)]))
  }
}

=== FILE: sync_schedule.dfy ===
/**
 * When synchronization runs (`SyncUtils`): a recurring job every 24 hours
 * with a flexible window of a third of that, plus one immediate run at start-up
 * when the last successful sync is older than the interval. Start-up work is
 * done once per process. The clock and the stored last-sync time are inputs.
 */
module SyncSchedule {

  const SYNC_INTERVAL_HOURS: int := 24
  const SYNC_INTERVAL_SECONDS: int := SYNC_INTERVAL_HOURS * 60 * 60
  const SYNC_INTERVAL_MILLIS: int := SYNC_INTERVAL_SECONDS * 1000
  const SYNC_FLEXTIME_SECONDS: int := SYNC_INTERVAL_SECONDS / 3

  /** The execution window of the recurring job, in seconds from now. */
  datatype Window = Window(start: int, end: int)

  function JobWindow(): (w: Window)
    ensures w.start == 86_400 && w.end == 115_200
    ensures w.end - w.start == 8 * 60 * 60
    ensures w.start * 1000 == SYNC_INTERVAL_MILLIS && SYNC_INTERVAL_MILLIS == 86_400_000
  {
    Window(SYNC_INTERVAL_SECONDS, SYNC_INTERVAL_SECONDS + SYNC_FLEXTIME_SECONDS)
  }

  /** The data is stale when strictly more than one interval has passed since the last sync. */
  predicate IsStale(now: int, lastSync: int)
  {
    now - lastSync > SYNC_INTERVAL_MILLIS
  }

  lemma StalenessIsStrict(lastSync: int)
    ensures !IsStale(lastSync + 86_400_000, lastSync)
    ensures IsStale(lastSync + 86_400_001, lastSync)
    ensures forall now :: IsStale(now, lastSync) <==> now > lastSync + 86_400_000
  {
  }

  /** What one call of `initialize` does. */
  datatype StartUp = StartUp(scheduledJob: bool, window: Window, immediateSync: bool)

  const NOTHING: StartUp := StartUp(false, Window(0, 0), false)

  /** `initialize`: the first call schedules the job and asks for an immediate
      sync when the data is stale; every later call does nothing. */
  function Initialize(initialized: bool, now: int, lastSync: int): (r: (bool, StartUp))
    ensures r.0
    ensures initialized ==> r.1 == NOTHING
    ensures !initialized ==> r.1.scheduledJob && r.1.window == JobWindow()
    ensures !initialized ==> (r.1.immediateSync <==> now - lastSync > 86_400_000)
  {
    if initialized then (true, NOTHING)
    else (true, StartUp(true, JobWindow(), IsStale(now, lastSync)))
  }

  /** Only the first call has an effect, whatever the clock says on later calls. */
  lemma InitializeRunsOnce(initialized: bool, now1: int, now2: int, lastSync1: int, lastSync2: int)
    ensures var (after, _) := Initialize(initialized, now1, lastSync1);
      Initialize(after, now2, lastSync2) == (after, NOTHING)
  {
  }
}

=== FILE: sync_service.dfy ===
/**
 * `SyncIntentService.onHandleIntent`: one synchronization run. It refuses to
 * start without a user API key, downloads every remote bookmark, reconciles the
 * store in one transaction, records the outcome in the single stored sync
 * result, and remembers the time of the last successful run. A failure leaves
 * the bookmarks and lists untouched and records which failure it was.
 *
 * The clock, the key from the preferences and the remote service are inputs.
 */
module SyncService {
  import opened Bookmarks
  import opened Paging
  import opened Reconcile

  /** The text stored with a sync result: the summary of the counts, or the
      message of one of the three failures. */
  datatype Message = SummaryText(summary: Summary) | ErrorText(error: SyncError)

  /** The one stored `SyncResult` object. */
  datatype SyncResult = SyncResult(success: bool, message: Message)

  /** What a run reads and writes: the store, the stored sync result and the
      last-sync time kept in the preferences. */
  datatype ServiceState = ServiceState(store: Store, result: SyncResult, lastSync: int)

  /** A run either completes, having notified the named lists, or keeps asking
      a service that never stops (the loop has no bound of its own). */
  datatype Run = Completed(state: ServiceState, notified: set<string>) | Hangs

  /** `syncBookmarks` up to the point where it commits or throws. */
  datatype Synced = Synced(reconciled: Reconciled) | SyncFailed(error: SyncError) | Unfinished

  function SyncBookmarks(store: Store, userKey: string, source: nat -> PageResponse, fuel: nat): (r: Synced)
    ensures userKey == "" <==> r == SyncFailed(ApiKeyError)
    ensures r.SyncFailed? && userKey != "" ==>
      exists failed :: FIRST_PAGE <= failed && AppendsUpTo(source, FIRST_PAGE, None, failed) &&
        !source(failed).Page? && (r.error == ServiceError <==> source(failed).HttpError?)
    ensures r.Synced? ==>
      exists stop :: StopsAt(source, FIRST_PAGE, None, stop) &&
        r.reconciled == ReconcileStore(store, Collected(source, FIRST_PAGE, stop))
    ensures r.Unfinished? ==> AppendsUpTo(source, FIRST_PAGE, None, FIRST_PAGE + fuel)
  {
    if userKey == "" then SyncFailed(ApiKeyError)
    else
      match FetchAll(source, fuel)
      case Fetched(records, stop) => Synced(ReconcileStore(store, records))
      case Failed(error, _) => SyncFailed(error)
      case OutOfFuel => Unfinished
  }

  /** `onHandleIntent` at time `now`. */
  function OnHandleIntent(st: ServiceState, userKey: string, source: nat -> PageResponse, now: int, fuel: nat): (r: Run)
    ensures userKey == "" ==> r == Completed(st.(result := SyncResult(false, ErrorText(ApiKeyError))), {})
    ensures r.Completed? && !r.state.result.success ==>
      && r.state.store == st.store && r.state.lastSync == st.lastSync && r.notified == {}
      && r.state.result.message.ErrorText?
    ensures r.Completed? && r.state.result.success ==>
      userKey != "" && r.state.lastSync == now && r.state.result.message.SummaryText?
    ensures r.Completed? && userKey != "" ==> r.state.result.message != ErrorText(ApiKeyError)
    ensures r.Completed? ==> NoEmptyLists(r.state.store) || r.state.store == st.store
    ensures r.Completed? ==> forall n :: n in r.notified ==>
      n in r.state.store.lists && r.state.store.lists[n].notifyFlag
    ensures r.Completed? && Valid(st.store) ==> Valid(r.state.store)
    ensures r.Hangs? ==> userKey != "" && AppendsUpTo(source, FIRST_PAGE, None, FIRST_PAGE + fuel)
  {
    match SyncBookmarks(st.store, userKey, source, fuel)
    case SyncFailed(error) => Completed(st.(result := SyncResult(false, ErrorText(error))), {})
    case Synced(rec) =>
      Completed(ServiceState(rec.store, SyncResult(true, SummaryText(rec.summary)), now), rec.notify)
    case Unfinished => Hangs
  }

  /** A service that stops, within the fuel, is synchronized: the store becomes
      the reconciliation with every record downloaded, the summary is recorded
      as a success and the run's time is remembered. */
  lemma SyncOfStoppingService(st: ServiceState, userKey: string, source: nat -> PageResponse, now: int,
                              stop: nat, fuel: nat)
    requires userKey != "" && StopsAt(source, FIRST_PAGE, None, stop) && stop - FIRST_PAGE < fuel
    ensures var rec := ReconcileStore(st.store, Collected(source, FIRST_PAGE, stop));
      OnHandleIntent(st, userKey, source, now, fuel) ==
        Completed(ServiceState(rec.store, SyncResult(true, SummaryText(rec.summary)), now), rec.notify)
  {
    FetchComplete(source, FIRST_PAGE, None, stop, fuel);
  }

  /** A service that answers some page with an HTTP error or not at all, every
      page before it having been appended, fails the run with the matching
      message and changes nothing else. */
  lemma SyncOfFailingService(st: ServiceState, userKey: string, source: nat -> PageResponse, now: int,
                             failed: nat, fuel: nat)
    requires userKey != "" && FIRST_PAGE <= failed && AppendsUpTo(source, FIRST_PAGE, None, failed)
    requires !source(failed).Page? && failed - FIRST_PAGE < fuel
    ensures var error := if source(failed).HttpError? then ServiceError else NetworkError;
      OnHandleIntent(st, userKey, source, now, fuel) == Completed(st.(result := SyncResult(false, ErrorText(error))), {})
  {
    FetchFailsAt(source, FIRST_PAGE, None, failed, fuel);
  }

  /** Running the service twice against an unchanged remote side, whose ids are
      all distinct, changes nothing the second time: the store is the same, the
      summary counts nothing and no list is notified. */
  lemma SecondSyncChangesNothing(st: ServiceState, userKey: string, source: nat -> PageResponse,
                                 now1: int, now2: int, stop: nat, fuel: nat)
    requires userKey != ""
    requires StopsAt(source, FIRST_PAGE, None, stop) && stop - FIRST_PAGE < fuel
    requires DistinctIds(Collected(source, FIRST_PAGE, stop))
    ensures var first := OnHandleIntent(st, userKey, source, now1, fuel);
      first.Completed? &&
      var second := OnHandleIntent(first.state, userKey, source, now2, fuel);
      && second == Completed(first.state.(result := SyncResult(true, SummaryText(Summary(0, 0, 0))), lastSync := now2), {})
  {
    var records := Collected(source, FIRST_PAGE, stop);
    SyncOfStoppingService(st, userKey, source, now1, stop, fuel);
    var first := OnHandleIntent(st, userKey, source, now1, fuel);
    SyncOfStoppingService(first.state, userKey, source, now2, stop, fuel);
    ReconcileIsIdempotent(st.store, records);
  }
}

=== FILE: urls.dfy ===
/**
 * URL normalisation: an address without a protocol gets "http://" in front.
 * The application carries two copies of this routine (`URLUtils.processURL`
 * and `LenientURL.processURL`); both are modelled and shown to agree.
 */
module Urls {
  import opened JavaString

  const PROTOCOL_SEPARATOR: string := "://"
  const DEFAULT_PROTOCOL: string := "http://"

  /** `URLUtils.processURL`: the empty address stays empty; any other result
      names a protocol, and it is the address itself when that already names
      one, otherwise the address with a protocol in front. */
  function ProcessUrl(rawUrl: string): (r: string)
    ensures |r| == 0 <==> |rawUrl| == 0
    ensures r == rawUrl || r == DEFAULT_PROTOCOL + rawUrl
    ensures |rawUrl| > 0 ==> Contains(r, PROTOCOL_SEPARATOR)
    ensures Contains(rawUrl, PROTOCOL_SEPARATOR) ==> r == rawUrl
  {
    if |rawUrl| == 0 then ""
    else if Contains(rawUrl, PROTOCOL_SEPARATOR) then rawUrl
    else
      DefaultProtocolHasSeparator();
      PrefixKeepsSeparator(DEFAULT_PROTOCOL, rawUrl);
      DEFAULT_PROTOCOL + rawUrl
  }

  /** `LenientURL.processURL`. */
  function LenientProcessUrl(rawUrl: string): (r: string)
    ensures |r| == 0 <==> |rawUrl| == 0
    ensures r == rawUrl || r == DEFAULT_PROTOCOL + rawUrl
    ensures |rawUrl| > 0 ==> Contains(r, PROTOCOL_SEPARATOR)
    ensures Contains(rawUrl, PROTOCOL_SEPARATOR) ==> r == rawUrl
  {
    if |rawUrl| == 0 then ""
    else if Contains(rawUrl, "://") then rawUrl
    else
      DefaultProtocolHasSeparator();
      PrefixKeepsSeparator("http://", rawUrl);
      "http://" + rawUrl
  }

  lemma DefaultProtocolHasSeparator()
    ensures Contains(DEFAULT_PROTOCOL, PROTOCOL_SEPARATOR)
  {
    assert OccursAt(DEFAULT_PROTOCOL, PROTOCOL_SEPARATOR, 4);
  }

  lemma PrefixKeepsSeparator(p: string, s: string)
    requires Contains(p, PROTOCOL_SEPARATOR)
    ensures Contains(p + s, PROTOCOL_SEPARATOR)
  {
    var i :| 0 <= i <= |p| - |PROTOCOL_SEPARATOR| && OccursAt(p, PROTOCOL_SEPARATOR, i);
    assert (p + s)[i..i + 3] == p[i..i + 3];
    assert OccursAt(p + s, PROTOCOL_SEPARATOR, i);
  }

  /** Normalising twice is normalising once. */
  lemma ProcessUrlIsIdempotent(rawUrl: string)
    ensures ProcessUrl(ProcessUrl(rawUrl)) == ProcessUrl(rawUrl)
  {
  }

  /** The two copies behave identically on every input. */
  lemma LenientAgreesWithProcessUrl(rawUrl: string)
    ensures LenientProcessUrl(rawUrl) == ProcessUrl(rawUrl)
  {
  }
}
